=== FILE: README.md ===
# uWSGI spooler, modelled in Dafny

This project models the core of the uWSGI spooler (`spooler.c`). The spooler is a task queue kept
in a directory. Workers drop task files into it, and one spooler process scans it and hands each
file to the plugins' `spooler` hooks.

The model covers four things.

- **The task record.** A file holds a 4-byte uwsgi packet header, the metadata block, then an
  optional body that runs to the end of the file:
  - modifier1 is 17 and modifier2 is 0;
  - the header's 16-bit `pktsize` gives the metadata length, little-endian.

  Writing and reading are modelled separately (`TaskCodec`), together with the round trip between
  them.
- **Enqueue.**
  - `spool_request` takes the spooler lock, builds the name and creates the priority directory. It
    then creates the file exclusively, `flock`s it, writes it, sets its mtime, closes it, releases
    the lock and wakes the spooler.
  - `uwsgi_request_spooler` spools a request and answers the client.

  Both are methods of a `Spooler` class. They act on a `FileSystem` object (a map from path to
  entry) and log the lock, close and wake-up actions in a trace.
- **Scanning.**
  - `spooler_manage_task` screens an entry: name, `lstat`, future mtime, priority directory, regular
    file, `access`.
  - `spooler_scandir` visits a directory's `versionsort`ed listing from the last index down.
  - `spooler_readdir` visits entries in the order the operating system lists them.
  - A ghost log of `spooler_manage_task` calls records the visiting order.
- **Dispatch.** Hooks are tried in slot order. 0 means "not mine" and the next hook is tried; any
  other value stops the loop, and -2 destroys the file. The watchdog is armed and disarmed around
  each call, and a log line is written when no hook claims the task.

The operating system is modelled as arguments, for every answer it may give that lies outside this
model:
- `EnqueueIo` covers formatting failures, mkdir, open, flock, how many bytes each write takes,
  futimes, and whether `unlink` is refused;
- `ScanIo` covers the clock, directory listings (both the `readdir` order and the `versionsort`ed
  `scandir` result, with the order `versionsort` sorts by), and chdir, open, flock and unlink
  failures. `ScanIo.ListingsAgree` states that the sorted listing is sorted and holds the same
  entries as the plain one.

Handlers are pure functions from (task name, metadata, body) to an int.

A scan is specified step by step. `Spooler.Spooler.Step` gives the effect of one call of
`spooler_manage_task` on the files, the event trace and the life of the process, and
`Spooler.Spooler.Replay` chains the steps over the ghost log of calls. Every walking method ensures
that its final state is the replay of the calls it made. `ReplayRemoves` then says which files a
walk removes, and when the process exits.

Notes on what the code does:

- **Header layout.** The header is the uwsgi packet header: modifier1 at offset 0, `pktsize` at
  offsets 1-2, modifier2 at offset 3. The consumer never looks at the two modifiers
  (`ModifiersIgnored`).
- **No size check.** Enqueue does not refuse metadata over 65535 bytes. `(uint16_t) size` keeps the
  low 16 bits, and the frame then slips (`OversizeMetadataSlips`).
- **Lock scope.** `spool_request` takes the spooler lock before it builds the name. On success it
  closes the file before it releases the lock. After a short write it releases the lock first, and
  only then unlinks and closes the file (`Finished`).
- **Lock failure leaves a file.** When `flock` fails after the exclusive create, the empty file stays
  on disk. Its header read is short, so it is kept forever (`LockFailureLeavesStrandedFile`).
- **The consumer drops its lock early.** Its `flock` is released by `close` before any hook runs; the
  task file is not locked while it is dispatched (`HandlersRunUnlocked`).
- **A short header read keeps the file.** Only a short metadata or body read destroys the file.
- **A refused destroy ends the process.** `destroy_spool` exits when it cannot enter the directory
  or unlink the file. A file that passes `access(R_OK|W_OK)` can still sit in a directory the
  spooler may not write. For a task a hook claimed with -2, the hook has then already run; a
  corrupt file is destroyed before any hook. Either way the walk stops there (`ReplayRemoves`).
- **Descending scan order.** `versionsort` sorts ascending and `while (n--)` walks the result from
  the end. An ordered scan therefore visits bucket `2` before bucket `1`, and `10` before `9`
  (`Spooler.Spooler.Scandir`, `Traversal.ReverseOfSortedDescends`).
- **Return value of `uwsgi_request_spooler`.** It returns 0 after a successful spool, even when the
  reply could not be written and the file was removed again, and -1 otherwise.

## Model

| member | source | states |
|---|---|---|
| `TaskCodec.EncodeHeader` | spooler.c:130-137 | the 4 header bytes hold modifier1 at 0, modifier2 at 3 and `pktsize` little-endian at 1-2 |
| `TaskCodec.DecodeHeader` | spooler.c:374-382 | decoding 4 bytes gives the header that encodes back to exactly those bytes |
| `TaskCodec.HeaderRoundTrip` | spooler.c:374-382 | decoding an encoded header gives the header back |
| `TaskCodec.Truncate16` | spooler.c:132 | the cast to `uint16_t` leaves sizes up to 65535 unchanged |
| `TaskCodec.SpoolHeader` | spooler.c:130-132 | the enqueued header is 17/size/0; the size is the metadata length when it fits 16 bits, and that length mod 65536 otherwise |
| `TaskCodec.EncodeTask` | spooler.c:130-149 | a completely written file is the header for the metadata length, then the metadata, then the body |
| `TaskCodec.ReadTask` | spooler.c:374-402 | a short header read is reported exactly when the file has fewer than 4 bytes; a decoded task has metadata of the header's length read right after the header, and a body of `st_size - pktsize - 4` bytes (empty when the size says so) read right after it |
| `TaskCodec.RoundTrip` | spooler.c:374-402 | a file written in full with at most 65535 metadata bytes reads back as header 17/size/0, the same metadata and the same body |
| `TaskCodec.OversizeMetadataSlips` | spooler.c:132 | with more than 65535 metadata bytes the reader takes only the first `size mod 65536` bytes as metadata and passes the rest, followed by the body, as the body |
| `TaskCodec.ReadPrefix` | spooler.c:374-402 | a file cut inside the header is left alone, one cut inside the metadata is reported truncated, one cut inside the body reads back with the body cut at the same place |
| `TaskCodec.ModifiersIgnored` | spooler.c:374-402 | changing modifier1 or modifier2 on disk changes nothing the reader returns but those two header fields |
| `TaskNames.Snprintf` | spooler.c:99 | the formatted path fits the 1024-byte buffer, is a prefix of the full text, and equals it when it fits |
| `TaskNames.Decimal` | spooler.c:105 | `%llu` produces a non-empty string of decimal digits, without a leading zero, whose value is the number formatted |
| `TaskNames.TaskBaseName` | spooler.c:99-105 | the file name starts with the reserved prefix `uwsgi_spoolfile_on_` |
| `TaskNames.SignedDecimalInjective` | spooler.c:99-105 | `%d` spells different integers differently |
| `TaskNames.JoinFieldsInjective` | spooler.c:99-105 | fields without `_` joined by `_` determine the fields |
| `TaskNames.TaskBaseNameInjective` | spooler.c:99-105 | on one host, equal file names come only from equal pids, request numbers, cores, seconds and microseconds |
| `TaskNames.PriorityDir` | spooler.c:92 | the priority directory fits the buffer, is a prefix of `<root>/<priority>`, and is exactly that when it fits |
| `TaskNames.TaskPath` | spooler.c:99-108 | the task path (with or without the priority directory) fits the 1024-byte buffer |
| `TaskNames.TaskPathInjective` | spooler.c:99-108 | two task paths for the same directory and host that `snprintf` did not cut are equal only when pid, request number, core and time are all equal |
| `TaskNames.IsCandidate` | spooler.c:320 | a name with the reserved prefix always passes; in unordered mode only such names pass; any other name passes only in ordered mode and only when `is_a_number` accepts it |
| `TaskNames.FormattedKeepsPrefix` | spooler.c:105 | formatting `dir/name` into the 1024-byte buffer keeps `dir/` and, when it fits, the reserved prefix of the name |
| `TaskNames.SpooledNameIsCandidate` | spooler.c:320 | a name built without priority, not cut into its prefix, sits directly in the spool root and passes the name test in both modes |
| `SpoolFs.FileSystem.Mkdir` | spooler.c:97 | creates the directory exactly when the name is free and the call is not refused; otherwise nothing changes |
| `SpoolFs.FileSystem.CreateExclusive` | spooler.c:111-116 | creates an empty file exactly when the name is free and the call is not refused; an existing entry is never touched |
| `SpoolFs.FileSystem.Write` | spooler.c:137-148 | appends the part of the buffer the kernel accepts and returns its length |
| `SpoolFs.RecordWritten` | spooler.c:137-149 | the number of bytes on disk never exceeds the full record, and reaches it exactly when header, metadata and (non-empty) body were each taken whole |
| `SpoolFs.FileSystem.WriteRecord` | spooler.c:137-149 | writes header, metadata and (non-empty) body, stopping at the first short write; the file then holds the prefix of the encoded task that was taken, and the call reports complete exactly when every write was complete |
| `SpoolFs.FileSystem.SetMtime` | spooler.c:151-164 | sets only the mtime of the file, unless the call is refused |
| `SpoolFs.FileSystem.Unlink` | spooler.c:183-185 | removes the entry exactly when it exists, is not a directory and the operating system does not refuse; otherwise nothing changes |
| `Spooler.AfterMkdir` | spooler.c:91-97 | the best-effort mkdir keeps every existing entry and adds at most the priority directory; that directory exists afterwards when its name was formatted and free and mkdir was not refused; without a priority, with a failed format or a refused mkdir nothing changes |
| `Spooler.ScheduledMtime` | spooler.c:151-164 | the file's mtime is the scheduled time when one was given (`at > 0`) and `futimes` worked, and the creation time otherwise |
| `Spooler.CreateResult` | spooler.c:111-149 | never a format failure; an open failure exactly when the name is taken or open is refused; a lock failure exactly when open worked and flock failed; a short write exactly when the file is open and locked and some write came up short; spooled exactly when the file is open and locked and every write was complete |
| `Spooler.EnqueueResult` | spooler.c:91-149 | enqueue fails before touching files exactly when a name cannot be formatted; with the names formatted, the open failure, lock failure, short write and success each happen under exactly the conditions `CreateResult` states |
| `Spooler.Finished` | spooler.c:166-187 | the events after the writes are three (close, unlock, wake) on success with a known spooler pid and two otherwise |
| `Spooler.Released` | spooler.c:87-187 | every way out of `spool_request` adds at least one and at most four events after the lock is taken |
| `Spooler.WrittenPart` | spooler.c:137-186 | what a short write leaves is a prefix of the encoded task, and the whole of it exactly when every write was complete |
| `Spooler.EnqueueFiles` | spooler.c:111-187 | enqueue adds at most the task path and leaves every other entry alone; a spool leaves the encoded task, a flock failure an empty file, a format or open failure nothing; a short write removes the file, or leaves the part written when the removal is refused |
| `Spooler.Spooler.SpoolRequest` | spooler.c:81-109 | returns 1 exactly when the task was spooled; the files are the post-mkdir map changed as `EnqueueFiles` says; the trace takes the spooler lock first and releases it on every way out; the filename is the path built |
| `Spooler.Spooler.CreateTask` | spooler.c:111-128 | create and lock the file and continue with the writes; failing to create leaves the files alone; failing to lock leaves the empty file |
| `Spooler.Spooler.WriteTask` | spooler.c:130-187 | after complete writes the file holds the encoded task with the scheduled mtime, is closed, the lock is released and the spooler woken when its pid is known; after a short write the lock is released, the file removed (or, when the unlink is refused, left holding what was written) and closed |
| `Spooler.Spooler.RequestSpooler` | spooler.c:445-482 | with the spooler off, a 255/0 empty packet is sent back and -1 returned; otherwise the request body is spooled as metadata under request number `requests + 1`, the 255/0/1 or 255/0/0 header is sent back, the file is removed again when the success reply could not be written, and the process exits exactly when that removal is refused; returns 0 exactly when the spool succeeded |
| `Spooler.Spooler.ReplySpooled` | spooler.c:459-470 | sends the 255/0/1 header; when it does not get through, removes the file, or ends the process when the removal is refused |
| `Spooler.Handle` | spooler.c:356-402 | the file is not opened exactly when open fails, not locked exactly when flock fails after it, its header is unread exactly when it is locked and shorter than 4 bytes, it is corrupt exactly when it is locked and the reader reports a short metadata or body read; a dispatched task's metadata has the header's length, follows the header, and its verdict is the first claim |
| `Spooler.Destroys` | spooler.c:384-431 | a corrupt file and a file whose claiming hook returned -2 are destroyed; a file that is not opened, not locked, has a short header, is unclaimed, or whose claimer returned anything else is kept |
| `Spooler.Handled` | spooler.c:358-438 | handling only appends events; nothing is appended exactly when the file is not opened; a failed flock appends only the close; otherwise the file is locked first and closed next, except when a corrupt file's destroy ends the process before the close |
| `Spooler.HandledHooks` | spooler.c:384-437 | no hook is called and nothing is logged unless the task was read whole; then only the slots `Called` lists are invoked, for this task, and the "no handler" line is logged exactly when no hook claimed it |
| `Spooler.Spooler.DestroySpool` | spooler.c:64-78 | enters `dir` again and removes `dir/file`; the process dies exactly when the directory cannot be entered or the removal fails |
| `Spooler.Spooler.ReplayRemoves` | spooler.c:309-441 | (`WalkRemoved`) a walk keeps every surviving file unchanged; a file disappears only when a visit found it due and its handling destroys it; when the process survives every such file is gone; the process dies only after such a destroy was refused |
| `Spooler.Spooler.Pass` | spooler.c:228-245 | a chdir failure into the spool root ends the process and changes nothing; otherwise the result is the replay of the calls made, only regular files inside the root are removed, a failed listing changes nothing, and the names visited in the root are a prefix of the listing (all of it unless the process died): descending under the `versionsort` order in ordered mode, the `readdir` order otherwise, each entry of the directory once |
| `Spooler.Spooler.ManageTask` | spooler.c:309-349 | the entry is visited first and only entries inside `dir` after it; an entry that is not a due priority directory (ordered mode) it can enter is the only visit; such a directory `p` is walked, every later visit being in `p` or inside it, nothing more being visited when `p` cannot be listed, and the names visited in `p` being a prefix of its `versionsort`ed listing reversed (all of it unless the process died), hence descending when the listing is sorted (`PrefixOfReverseDescends`); the result is the replay of the calls made, and only regular files inside `dir` are removed |
| `Spooler.Spooler.OpenTask` | spooler.c:349-438 | for a file that passed the screening, the files, trace and life of the process are exactly one `Step` of the consumer |
| `Spooler.Spooler.Scandir` | spooler.c:271-288 | a failed listing changes nothing; otherwise the names visited directly in `dir` are a prefix of the `versionsort`ed listing reversed (all of it unless the process died), descending whenever the listing is sorted; the result is the replay of the calls made |
| `Spooler.Spooler.Readdir` | spooler.c:292-307 | a failed `opendir` changes nothing; otherwise the names visited directly in `dir` are a prefix of the listing in the operating system's order (all of it unless the process died), and nothing else is visited in unordered mode; the result is the replay of the calls made |
| `Candidates.Screen` | spooler.c:320-349 | an entry is processed exactly when it passes the name test, exists, is not in the future, is a regular file and is accessible; it is recursed into exactly when it passes the name test, exists, is not in the future, is a directory and the spooler is ordered |
| `Dispatch.Claim` | spooler.c:412-435 | a claim names a slot with a hook whose return value is that non-zero claim |
| `Dispatch.ClaimIsFirst` | spooler.c:412-435 | the claiming slot is the first that does not decline, and no slot claims exactly when every slot declines |
| `Dispatch.Called` | spooler.c:413-419 | only slots from the starting one on that hold a hook are called |
| `Dispatch.CalledSlots` | spooler.c:412-435 | the hooks called are exactly those up to and including the claiming one (all of them when none claims), each once, in increasing slot order |
| `Dispatch.WatchdogArmed` | spooler.c:416-422 | with a positive harakiri every call is preceded by arming the watchdog with that budget and followed by disarming it |
| `Dispatch.InvokeBracketed` | spooler.c:416-422 | with a positive harakiri each call of a hook has the arming with that budget right before it and the disarming right after it |
| `Dispatch.WatchdogIdle` | spooler.c:416-422 | with no harakiri budget the watchdog is never touched |
| `Dispatch.RunHandlers` | spooler.c:412-438 | the loop's verdict is the first claim in slot order, and its events are the bracketed calls of exactly the slots called |
| `Dispatch.BracketedEvents` | spooler.c:413-422 | the events of the handler loop are arming, disarming, and calls of the listed slots' hooks for this task |
| `Traversal.ReverseOfSortedDescends` | spooler.c:276-285 | walking an ascending listing from the last index down visits it in descending order |
| `Traversal.PrefixOfReverseDescends` | spooler.c:282-285 | a walk cut short by the process exiting still visits in descending order |
| `Traversal.ReverseSuffix` | spooler.c:282-285 | after `while (n--)` has passed index `n`, the entries visited are the first entries of the reversed listing |
| `Traversal.ReverseMultiset` | spooler.c:276-285 | the reversed listing holds the same entries as the listing |
| `SpoolProperties.SpooledTaskIsDispatched` | spooler.c:374-402 | a task spooled in full reaches the hooks with exactly the metadata and body enqueued, and is removed exactly when the claiming hook returns -2 |
| `SpoolProperties.LockFailureLeavesStrandedFile` | spooler.c:122-128 | the empty file left by a failed flock passes the screening once due but is never dispatched and never removed |
| `SpoolProperties.ExistingFileUntouched` | spooler.c:111-116 | an enqueue under an existing name never succeeds and leaves the file map unchanged |
| `SpoolProperties.EnqueueLockBalanced` | spooler.c:87-187 | every way out of enqueue takes the spooler lock once, first, and releases it exactly once |
| `SpoolProperties.EnqueueWakesOnSuccess` | spooler.c:122-177 | the spooler is woken exactly when the task was spooled and its pid is known; the file is locked exactly when it gets written |
| `SpoolProperties.HandlersRunUnlocked` | spooler.c:404-422 | the task file is closed, dropping its lock, before any hook runs, and each call sits between arming and disarming the watchdog |
| `SpoolProperties.CorruptTaskDestroyed` | spooler.c:384-389 | a due file whose header announces more metadata than it holds is locked and destroyed without any hook call; it is closed and removed, or, when the destroy is refused, the process dies with the file still there |
| `SpoolProperties.UnclaimedTaskKept` | spooler.c:412-438 | a task read whole that every plugin slot declines is kept, the process goes on, and the "no handler" line is logged |
| `SpoolProperties.FutureTaskSurvives` | spooler.c:326-329 | a file scheduled later than the pass's clock survives any walk unchanged |

## Left out

- The spooler process itself is not modelled: its start-up (fork, priority, stdin redirection), the
  wait for events between passes, and the master's signals. Only one pass of its loop is modelled
  (`Pass`).
- `realpath` and the working directory are not modelled; only whether a `chdir` fails is. Every path
  is the directory joined with the name, which is what `realpath(".")` gives after a successful
  `chdir` into a directory that `lstat` reported. The failures of the `chdir` into the spool root,
  into a priority directory and in `destroy_spool` are modelled; the last is a separate answer
  (`ScanIo.destroyChdirFails`), since the directory can become unreachable while the walk is in it. The model does not capture these:
  - the ignored failure to return to the parent directory;
  - the effect of the configured `spooler_chdir`, which is entered before the hooks run and never
    left, so later relative lookups in the same pass resolve against it.
- The file is read in one go: `st_size` from `lstat` is taken to be the file's length when it is
  read. A file that grows or shrinks between `lstat` and `read` is not modelled. The decoder itself
  (`ReadTask`) takes the stat size separately.
- `Spooler.Handle`: a `read` that returns fewer bytes than asked although the file holds them (an
  I/O error, or a single read of more than 0x7ffff000 bytes on Linux) is not modelled; the reader
  always gets what is on disk, so such an intact task is never destroyed in the model.
- `Spooler.Spooler.Pass`: the clock is one instant (`ScanIo.now`) for the whole pass, where the code
  calls `time(NULL)` for each entry; a file that becomes due while earlier hooks run is processed by
  the code in that pass and not by the model.
- `TaskNames.Snprintf`: truncates to 1023 characters, where `snprintf` truncates to 1023 bytes; the
  two differ for host names or directories that are not plain ASCII.
- The listings in `ScanIo` are arguments, not computed from the file map: the model does not tie the
  names a directory lists to the entries the map holds under it.
- `SpoolFs.FileSystem.CreateExclusive`, `SpoolFs.FileSystem.Mkdir`: the file map is flat, and a
  path's parent directory need not be in it. When the priority directory could not be made (a refused
  `mkdir`), the code's `open` fails with `ENOENT` and `spool_request` returns 0, while the model
  creates the task file under the missing directory.
- `Spooler.Spooler.RequestSpooler`: the request number `requests + 1` is passed as a C `int` and
  printed with `%d`; the model's request number is unbounded and never wraps.
- Concurrency between workers and the spooler (real `flock` blocking, two processes at once) is not
  modelled. Lock and close actions are events in a trace, and `flock` failures are arguments.
- Handlers have no side effects in the model. The `free(body)` after the first hook call is not
  modelled: later hooks in the same loop get the body again, where the C code passes freed memory.
- The plugin table is the sequence of slots the loop consults (slots 0 to 254 in the C code).
- Only the Linux build is modelled: ordered mode uses `scandir` with `versionsort` and recurses into
  priority directories. `versionsort` itself is an argument: the sorted listing and the order it
  sorts by. `is_a_number` is a parameter.
- Log lines other than the "no handler" one, and the contents of `uwsgi_send_empty_pkt` beyond its
  two modifiers, are not modelled. The watchdog's timer is only the arm and disarm events.
- The Solaris `lockf`/`futimesat` variants and the big-endian byte swap are not modelled: on disk
  the size is little-endian.
- `Spooler.Finished`: its own contract states only the number of events; their order and content
  are stated by `WriteTask`, `EnqueueLockBalanced` and `EnqueueWakesOnSuccess`.
- `Spooler.Released`: its own contract states only the number of events; which events occur on
  each way out is stated by `EnqueueLockBalanced` and `EnqueueWakesOnSuccess`.
- `Spooler.Spooler.Readdir`: in unordered mode it states the number of visits, not the full visit
  sequence. That count, together with the names visited in the directory, determines the sequence.
- `TaskNames.TaskPath`: states only that the path fits the buffer; the layout of the name is its
  definition, and its properties are in `SpooledNameIsCandidate` and `TaskPathInjective`.
- `TaskNames.TaskPathInjective`: distinct names are proved only for paths `snprintf` did not cut.
  With a long host name or spool directory the cut can drop the differing fields, and two requests
  then get the same path; the second `open` then fails on `O_EXCL`. Names from different hosts are
  not compared: a host name may itself hold `_`.

=== FILE: codec.dfy ===
/**
 * The spool record: a 4-byte uwsgi packet header, `pktsize` metadata bytes,
 * and an optional body that runs to the end of the file.
 *
 * The header is the uwsgi packet header: `modifier1` at offset 0, the 16-bit
 * `pktsize` in little-endian at offsets 1-2, `modifier2` at offset 3.
 */
module TaskCodec {

  newtype byte = x: int | 0 <= x < 256
  type uint16 = x: int | 0 <= x < 0x1_0000

  /** `modifier1` marking a spool record. */
  const SpoolModifier1: byte := 17
  /** The largest metadata block a header can describe (and the size of `spool_buf`). */
  const MaxMetadata: nat := 0xFFFF

  datatype Header = Header(modifier1: byte, pktsize: uint16, modifier2: byte)

  /** The 4 bytes of a header as they are stored on disk and on the wire. */
  function EncodeHeader(h: Header): (b: seq<byte>)
    ensures |b| == 4
    ensures b[0] == h.modifier1 && b[3] == h.modifier2
    ensures b[1] as int + 256 * b[2] as int == h.pktsize
  {
    [h.modifier1, (h.pktsize % 256) as byte, (h.pktsize / 256) as byte, h.modifier2]
  }

  /** Reads a header from 4 bytes; `pktsize` is taken as little-endian. */
  function DecodeHeader(b: seq<byte>): (h: Header)
    requires |b| == 4
    ensures EncodeHeader(h) == b
  {
    Header(b[0], b[1] as int + 256 * b[2] as int, b[3])
  }

  lemma HeaderRoundTrip(h: Header)
    ensures DecodeHeader(EncodeHeader(h)) == h
  {
  }

  /** `(uint16_t) size`: the C cast keeps the low 16 bits. */
  function Truncate16(size: nat): (r: uint16)
    ensures size <= MaxMetadata ==> r == size
  {
    size % 0x1_0000
  }

  /** The header `spool_request` writes for `size` metadata bytes. */
  function SpoolHeader(size: nat): (h: Header)
    ensures h.modifier1 == SpoolModifier1 && h.modifier2 == 0
    ensures size <= MaxMetadata ==> h.pktsize == size
    ensures size > MaxMetadata ==> h.pktsize == size % 0x1_0000
  {
    Header(SpoolModifier1, Truncate16(size), 0)
  }

  /**
   * The whole file `spool_request` writes when every write completes:
   * header, then `meta`, then `body` (which is absent when empty).
   */
  function EncodeTask(meta: seq<byte>, body: seq<byte>): (f: seq<byte>)
    ensures |f| == 4 + |meta| + |body|
    ensures f[..4] == EncodeHeader(SpoolHeader(|meta|))
    ensures f[4..4 + |meta|] == meta && f[4 + |meta|..] == body
  {
    EncodeHeader(SpoolHeader(|meta|)) + meta + body
  }

  /** Which read of `spooler_manage_task` came back short after the header. */
  datatype Stage = Metadata | Body

  datatype ReadOutcome =
    | HeaderShort                                 // file left in place
    | Truncated(stage: Stage)                     // file destroyed
    | Task(header: Header, meta: seq<byte>, body: seq<byte>)

  /**
   * How `spooler_manage_task` reads a locked candidate: `data` is what the
   * file holds when it is read, `statSize` the size `lstat` reported earlier.
   * A read returns as many bytes as asked for or as remain, whichever is less.
   */
  function ReadTask(statSize: int, data: seq<byte>): (r: ReadOutcome)
    ensures r.HeaderShort? <==> |data| < 4
    ensures r.Truncated? ==> |data| >= 4
    ensures r.Task? ==>
      && r.header == DecodeHeader(data[..4])
      && |r.meta| == r.header.pktsize
      && 4 + |r.meta| + |r.body| <= |data|
      && r.meta == data[4..4 + |r.meta|]
      && r.body == data[4 + |r.meta|..4 + |r.meta| + |r.body|]
      && |r.body| == (if statSize > 4 + |r.meta| then statSize - 4 - |r.meta| else 0)
  {
    if |data| < 4 then HeaderShort
    else
      var h := DecodeHeader(data[..4]);
      var n := h.pktsize;
      if |data| - 4 < n then Truncated(Metadata)
      else if statSize > n + 4 then
        var bodyLen := statSize - (n + 4);
        if |data| - (4 + n) < bodyLen then Truncated(Body)
        else Task(h, data[4..4 + n], data[4 + n..4 + n + bodyLen])
      else Task(h, data[4..4 + n], [])
  }

  /**
   * A file written completely by `spool_request` reads back as exactly the
   * metadata and the body that were written, with the header 17/size/0.
   */
  lemma RoundTrip(meta: seq<byte>, body: seq<byte>)
    requires |meta| <= MaxMetadata
    ensures var f := EncodeTask(meta, body);
      ReadTask(|f|, f) == Task(Header(SpoolModifier1, |meta|, 0), meta, body)
  {
    var f := EncodeTask(meta, body);
    assert DecodeHeader(f[..4]) == SpoolHeader(|meta|);
    if |body| == 0 {
      assert f[4 + |meta|..] == [];
    }
  }

  /**
   * Without the 16-bit bound the frame slips: the reader takes only the
   * first `|meta| mod 65536` metadata bytes and hands the rest of the
   * metadata to the handler as the start of the body.
   */
  lemma OversizeMetadataSlips(meta: seq<byte>, body: seq<byte>)
    ensures var f := EncodeTask(meta, body);
      var k := |meta| % 0x1_0000;
      ReadTask(|f|, f) == Task(Header(SpoolModifier1, k, 0), meta[..k], meta[k..] + body)
  {
    var f := EncodeTask(meta, body);
    var k := |meta| % 0x1_0000;
    assert DecodeHeader(f[..4]) == SpoolHeader(|meta|);
    assert f[4..4 + k] == meta[..k];
    if 4 + k < |f| {
      assert f[4 + k..|f|] == meta[k..] + body;
    } else {
      assert meta[k..] + body == [];
    }
  }

  /**
   * A file cut anywhere after the header but inside the metadata is
   * reported truncated (and so destroyed); one cut inside the header is
   * left alone; one cut inside the body is accepted with the body cut too.
   */
  lemma ReadPrefix(meta: seq<byte>, body: seq<byte>, len: nat)
    requires |meta| <= MaxMetadata
    requires len <= |EncodeTask(meta, body)|
    ensures var p := EncodeTask(meta, body)[..len];
      && (len < 4 ==> ReadTask(len, p) == HeaderShort)
      && (4 <= len < 4 + |meta| ==> ReadTask(len, p) == Truncated(Metadata))
      && (4 + |meta| <= len ==>
            ReadTask(len, p) == Task(SpoolHeader(|meta|), meta, body[..len - 4 - |meta|]))
  {
    var f := EncodeTask(meta, body);
    var p := f[..len];
    if len >= 4 {
      assert p[..4] == f[..4];
      assert DecodeHeader(p[..4]) == SpoolHeader(|meta|);
      if 4 + |meta| <= len {
        assert p[4..4 + |meta|] == meta;
        assert p[4 + |meta|..len] == body[..len - 4 - |meta|];
      }
    }
  }

  /**
   * The reader never looks at `modifier1` or `modifier2`: changing bytes 0
   * and 3 of a file changes nothing but those header fields.
   */
  lemma ModifiersIgnored(statSize: int, data: seq<byte>, m1: byte, m2: byte)
    requires |data| >= 4
    ensures var d' := [m1] + data[1..3] + [m2] + data[4..];
      var r, r' := ReadTask(statSize, data), ReadTask(statSize, d');
      && r.Task? == r'.Task?
      && r.Truncated? == r'.Truncated?
      && (r.Task? ==> r'.meta == r.meta && r'.body == r.body
                      && r'.header == r.header.(modifier1 := m1, modifier2 := m2))
  {
    var d' := [m1] + data[1..3] + [m2] + data[4..];
    assert |d'| == |data|;
    assert d'[1] == data[1] && d'[2] == data[2];
    assert d'[4..] == data[4..];
    assert forall i :: 4 <= i < |data| ==> d'[i] == data[i];
  }
}

=== FILE: dispatch.dfy ===
/**
 * What `spooler_manage_task` decides once a task has been read: which
 * handlers run, in what order, under the watchdog, and what their return
 * values mean for the file.
 */
module Dispatch {
  import opened TaskCodec
  import opened TaskNames
  import opened SpoolEvents

  /** A plugin's `spooler` hook: task name, metadata and body to a verdict. */
  type Handler = (string, seq<byte>, seq<byte>) -> int

  /** The return value that means "done": the task file is destroyed. */
  const SpoolOk: int := -2

  /** The first handler that returned non-zero, if any. */
  datatype Verdict = Unclaimed | Claimed(slot: nat, ret: int)

  /** A plugin slot with no hook, or a hook that returned 0 ("not mine"). */
  predicate Declines(slot: Option<Handler>, task: string, meta: seq<byte>, body: seq<byte>)
  {
    slot.None? || slot.value(task, meta, body) == 0
  }

  /** The verdict of trying slots `from`, `from + 1`, ... in order. */
  function Claim(plugins: seq<Option<Handler>>, from: nat, task: string,
                 meta: seq<byte>, body: seq<byte>): (v: Verdict)
    ensures v.Claimed? ==>
      && from <= v.slot < |plugins|
      && plugins[v.slot].Some?
      && v.ret == plugins[v.slot].value(task, meta, body)
      && v.ret != 0
    decreases |plugins| - from
  {
    if from >= |plugins| then Unclaimed
    else if !Declines(plugins[from], task, meta, body)
    then Claimed(from, plugins[from].value(task, meta, body))
    else Claim(plugins, from + 1, task, meta, body)
  }

  /**
   * The verdict is the first slot that does not decline, and there is
   * none exactly when every slot declines.
   */
  lemma {:induction false} ClaimIsFirst(plugins: seq<Option<Handler>>, from: nat, task: string,
                                        meta: seq<byte>, body: seq<byte>)
    ensures var v := Claim(plugins, from, task, meta, body);
      && (v.Unclaimed? <==>
            forall j :: from <= j < |plugins| ==> Declines(plugins[j], task, meta, body))
      && (v.Claimed? ==>
            forall j :: from <= j < v.slot ==> Declines(plugins[j], task, meta, body))
    decreases |plugins| - from
  {
    if from < |plugins| && Declines(plugins[from], task, meta, body) {
      ClaimIsFirst(plugins, from + 1, task, meta, body);
    }
  }

  /** The slots whose hook is called, in call order, starting at `from`. */
  function Called(plugins: seq<Option<Handler>>, from: nat, task: string,
                  meta: seq<byte>, body: seq<byte>): (slots: seq<nat>)
    ensures forall j :: j in slots ==> from <= j < |plugins| && plugins[j].Some?
    decreases |plugins| - from
  {
    if from >= |plugins| then []
    else if plugins[from].None? then Called(plugins, from + 1, task, meta, body)
    else if plugins[from].value(task, meta, body) != 0 then [from]
    else [from] + Called(plugins, from + 1, task, meta, body)
  }

  /**
   * Exactly the slots with a hook up to and including the claiming one are
   * called (all of them when nobody claims the task), each once, in
   * increasing order.
   */
  lemma {:induction false} CalledSlots(plugins: seq<Option<Handler>>, from: nat, task: string,
                                       meta: seq<byte>, body: seq<byte>)
    ensures var c, v := Called(plugins, from, task, meta, body), Claim(plugins, from, task, meta, body);
      && (forall j :: j in c <==>
            from <= j < |plugins| && plugins[j].Some? && (v.Unclaimed? || j <= v.slot))
      && (forall a, b :: 0 <= a < b < |c| ==> c[a] < c[b])
      && (v.Claimed? ==> c != [] && c[|c| - 1] == v.slot)
    decreases |plugins| - from
  {
    if from < |plugins| {
      CalledSlots(plugins, from + 1, task, meta, body);
      var rest := Called(plugins, from + 1, task, meta, body);
      var c := Called(plugins, from, task, meta, body);
      if plugins[from].None? {
        assert c == rest;
      } else if plugins[from].value(task, meta, body) != 0 {
        assert c == [from];
      } else {
        assert c == [from] + rest;
        forall a, b | 0 <= a < b < |c|
          ensures c[a] < c[b]
        {
          assert c[b] == rest[b - 1] && rest[b - 1] in rest;
          if a > 0 {
            assert c[a] == rest[a - 1];
          }
        }
      }
    }
  }

  /** One handler call, with the watchdog armed around it when configured. */
  function Bracket(harakiri: int, slot: nat, task: string): (e: seq<Event>)
  {
    (if harakiri > 0 then [ArmHarakiri(harakiri)] else [])
      + [Invoke(slot, task)]
      + (if harakiri > 0 then [DisarmHarakiri] else [])
  }

  /** The events of calling the hooks of `slots` one after the other. */
  function Bracketed(harakiri: int, slots: seq<nat>, task: string): (e: seq<Event>)
  {
    if slots == [] then []
    else Bracket(harakiri, slots[0], task) + Bracketed(harakiri, slots[1..], task)
  }

  /** `x` arms or disarms the watchdog, or calls the hook of one of `slots` for `task`. */
  predicate HookEvent(x: Event, harakiri: int, slots: seq<nat>, task: string)
  {
    || x == ArmHarakiri(harakiri) || x == DisarmHarakiri
    || (x.Invoke? && x.task == task && x.slot in slots)
  }

  /** The calls of `Bracketed` are calls of the hooks in `slots`, and the rest is the watchdog. */
  lemma {:induction false} BracketedEvents(harakiri: int, slots: seq<nat>, task: string)
    ensures forall x :: x in Bracketed(harakiri, slots, task) ==> HookEvent(x, harakiri, slots, task)
  {
    if slots != [] {
      BracketedEvents(harakiri, slots[1..], task);
      var e := Bracketed(harakiri, slots, task);
      var head := Bracket(harakiri, slots[0], task);
      var rest := Bracketed(harakiri, slots[1..], task);
      assert e == head + rest;
      forall x | x in e
        ensures HookEvent(x, harakiri, slots, task)
      {
        if x in rest {
          assert HookEvent(x, harakiri, slots[1..], task);
        } else if harakiri > 0 {
          assert head == [ArmHarakiri(harakiri), Invoke(slots[0], task), DisarmHarakiri];
        } else {
          assert head == [Invoke(slots[0], task)];
        }
      }
    }
  }

  lemma {:induction false} BracketedAppend(harakiri: int, slots: seq<nat>, slot: nat, task: string)
    ensures Bracketed(harakiri, slots + [slot], task)
         == Bracketed(harakiri, slots, task) + Bracket(harakiri, slot, task)
  {
    if slots != [] {
      assert (slots + [slot])[1..] == slots[1..] + [slot];
      BracketedAppend(harakiri, slots[1..], slot, task);
    }
  }

  /**
   * With a positive harakiri every call is immediately preceded by arming
   * the watchdog and followed by disarming it.
   */
  lemma {:induction false} WatchdogArmed(harakiri: int, slots: seq<nat>, task: string)
    requires harakiri > 0
    ensures var e := Bracketed(harakiri, slots, task);
      && |e| == 3 * |slots|
      && forall k :: 0 <= k < |slots| ==>
           && e[3 * k] == ArmHarakiri(harakiri)
           && e[3 * k + 1] == Invoke(slots[k], task)
           && e[3 * k + 2] == DisarmHarakiri
  {
    if slots != [] {
      WatchdogArmed(harakiri, slots[1..], task);
      var rest := Bracketed(harakiri, slots[1..], task);
      var e := Bracketed(harakiri, slots, task);
      assert e == [ArmHarakiri(harakiri), Invoke(slots[0], task), DisarmHarakiri] + rest;
      forall k | 1 <= k < |slots|
        ensures e[3 * k] == ArmHarakiri(harakiri)
        ensures e[3 * k + 1] == Invoke(slots[k], task)
        ensures e[3 * k + 2] == DisarmHarakiri
      {
        assert slots[1..][k - 1] == slots[k];
        assert e[3 * k] == rest[3 * (k - 1)];
        assert e[3 * k + 1] == rest[3 * (k - 1) + 1];
        assert e[3 * k + 2] == rest[3 * (k - 1) + 2];
      }
    }
  }

  /** Seen from any call: with a positive harakiri its neighbours are the arming and the disarming. */
  lemma InvokeBracketed(harakiri: int, slots: seq<nat>, task: string, i: int)
    requires harakiri > 0
    requires 0 <= i < |Bracketed(harakiri, slots, task)| && Bracketed(harakiri, slots, task)[i].Invoke?
    ensures var b := Bracketed(harakiri, slots, task);
      0 < i < |b| - 1 && b[i - 1] == ArmHarakiri(harakiri) && b[i + 1] == DisarmHarakiri
  {
    WatchdogArmed(harakiri, slots, task);
    var j := i / 3;
    assert 0 <= j < |slots|;
    assert i == 3 * j + 1;
  }

  /** Without a harakiri budget the watchdog is never touched: only calls occur. */
  lemma {:induction false} WatchdogIdle(harakiri: int, slots: seq<nat>, task: string)
    requires harakiri <= 0
    ensures var e := Bracketed(harakiri, slots, task);
      && |e| == |slots|
      && forall k :: 0 <= k < |slots| ==> e[k] == Invoke(slots[k], task)
  {
    if slots != [] {
      WatchdogIdle(harakiri, slots[1..], task);
      var rest := Bracketed(harakiri, slots[1..], task);
      var e := Bracketed(harakiri, slots, task);
      assert e == [Invoke(slots[0], task)] + rest;
      forall k | 1 <= k < |slots|
        ensures e[k] == Invoke(slots[k], task)
      {
        assert slots[1..][k - 1] == slots[k];
        assert e[k] == rest[k - 1];
      }
    }
  }

  /**
   * The handler loop of `spooler_manage_task`: every plugin slot in index
   * order, skipping slots without a hook; 0 means try the next one, any
   * other value stops the loop. Returns the verdict and the events.
   */
  method RunHandlers(plugins: seq<Option<Handler>>, harakiri: int, task: string,
                     meta: seq<byte>, body: seq<byte>) returns (v: Verdict, events: seq<Event>)
    ensures v == Claim(plugins, 0, task, meta, body)
    ensures events == Bracketed(harakiri, Called(plugins, 0, task, meta, body), task)
  {
    ghost var verdict := Claim(plugins, 0, task, meta, body);
    ghost var allCalled := Called(plugins, 0, task, meta, body);
    var callableFound := false;
    ghost var called: seq<nat> := [];
    events := [];
    v := Unclaimed;
    var i: nat := 0;
    while i < |plugins|
      invariant i <= |plugins|
      invariant !callableFound && v == Unclaimed
      invariant Claim(plugins, i, task, meta, body) == verdict
      invariant called + Called(plugins, i, task, meta, body) == allCalled
      invariant events == Bracketed(harakiri, called, task)
    {
      ghost var rest := Called(plugins, i + 1, task, meta, body);
      if plugins[i].Some? {
        // the watchdog is armed around the call when a budget is set
        var ret := plugins[i].value(task, meta, body);
        events := events + Bracket(harakiri, i, task);
        BracketedAppend(harakiri, called, i, task);
        if ret != 0 {
          assert Claim(plugins, i, task, meta, body) == Claimed(i, ret);
          assert Called(plugins, i, task, meta, body) == [i];
          called := called + [i];
          callableFound := true;
          v := Claimed(i, ret);
          break;
        }
        assert Claim(plugins, i, task, meta, body) == Claim(plugins, i + 1, task, meta, body);
        assert Called(plugins, i, task, meta, body) == [i] + rest;
        assert called + ([i] + rest) == called + [i] + rest;
        called := called + [i];
      } else {
        assert Called(plugins, i, task, meta, body) == rest;
      }
      i := i + 1;
    }
    if !callableFound {
      assert Called(plugins, i, task, meta, body) == [];
      assert called + [] == called;
    }
  }
}

=== FILE: events.dfy ===
/**
 * The observable actions of the spooler other than changes to files:
 * the process-wide spooler lock, advisory locks on task files, the
 * watchdog, handler calls, log lines that matter, and packets sent back.
 */
module SpoolEvents {
  import opened TaskCodec
  import opened TaskNames

  datatype Event =
    | SpoolerLock                        // uwsgi_lock(uwsgi.spooler_lock)
    | SpoolerUnlock                      // uwsgi_unlock(uwsgi.spooler_lock)
    | FileLocked(path: Path)             // flock(fd, LOCK_EX) on a task file succeeded
    | FileClosed(path: Path)             // close(fd) on a task file, dropping its lock
    | Wake(pid: int)                     // kill(spooler_pid, SIGUSR1)
    | ArmHarakiri(seconds: int)          // set_spooler_harakiri(seconds)
    | DisarmHarakiri                     // set_spooler_harakiri(0)
    | Invoke(slot: nat, task: string)    // uwsgi.p[slot]->spooler(task, ...)
    | NoHandler(task: string)            // logged when no hook claimed the task
    | Reply(packet: seq<byte>)           // the bytes of the 4-byte answer that reached the client
    | EmptyPacket(modifier1: byte, modifier2: byte)  // an empty uwsgi packet sent back

  /** How many times `e` occurs in `events`. */
  function Count(events: seq<Event>, e: Event): (n: nat)
    ensures n <= |events|
    ensures n == 0 <==> e !in events
  {
    if events == [] then 0
    else (if events[0] == e then 1 else 0) + Count(events[1..], e)
  }

  lemma {:induction false} CountConcat(a: seq<Event>, b: seq<Event>)
    ensures forall e :: Count(a + b, e) == Count(a, e) + Count(b, e)
  {
    if a == [] {
      assert a + b == b;
    } else {
      assert (a + b)[1..] == a[1..] + b;
      CountConcat(a[1..], b);
    }
  }

  lemma CountSnoc(s: seq<Event>, x: Event, e: Event)
    ensures Count(s + [x], e) == Count(s, e) + (if x == e then 1 else 0)
  {
    CountConcat(s, [x]);
    assert [x][1..] == [];
  }
}

=== FILE: filesystem.dfy ===
/**
 * The part of the operating system the spooler talks to: a flat map from
 * path to directory entry, and the system calls it issues against it.
 * Anything the operating system may refuse for reasons outside this model
 * (permissions, quotas, a full disk) is an argument of the call.
 */
module SpoolFs {
  import opened TaskCodec
  import opened TaskNames

  datatype Kind = Regular | Directory | Other

  /**
   * What `lstat` and `access` report about an entry, plus its contents.
   * `accessible` says whether the process may read and write it.
   */
  datatype Entry = Entry(kind: Kind, data: seq<byte>, mtime: int, accessible: bool)

  /** A regular file created by `open(O_CREAT | O_EXCL, S_IRUSR | S_IWUSR)`. */
  function NewFile(mtime: int): (e: Entry)
  {
    Entry(Regular, [], mtime, true)
  }

  /** The directories of a file map, which the spooler never removes. */
  function Dirs(files: map<Path, Entry>): (dirs: set<Path>)
  {
    set p | p in files && files[p].kind == Directory
  }

  /**
   * Every change the consumer makes below `root`: some regular files inside
   * `root` disappear and nothing else changes.
   */
  ghost predicate OnlyRemovesFilesUnder(before: map<Path, Entry>, after: map<Path, Entry>, root: Path)
  {
    && after.Keys <= before.Keys
    && (forall p :: p in after ==> after[p] == before[p])
    && (forall p :: p in before && p !in after ==> before[p].kind == Regular && Below(p, root))
  }

  lemma OnlyRemovesFilesUnderTransitive(a: map<Path, Entry>, b: map<Path, Entry>, c: map<Path, Entry>, root: Path)
    requires OnlyRemovesFilesUnder(a, b, root) && OnlyRemovesFilesUnder(b, c, root)
    ensures OnlyRemovesFilesUnder(a, c, root)
  {
  }

  /** Removals inside a subdirectory are removals inside its parent. */
  lemma OnlyRemovesFilesUnderWiden(a: map<Path, Entry>, b: map<Path, Entry>, sub: Path, root: Path)
    requires OnlyRemovesFilesUnder(a, b, sub) && Below(sub, root)
    ensures OnlyRemovesFilesUnder(a, b, root)
  {
    forall p | p in a && p !in b
      ensures Below(p, root)
    {
      BelowTransitive(p, sub, root);
    }
  }

  lemma OnlyRemovesFilesUnderKeepsDirs(a: map<Path, Entry>, b: map<Path, Entry>, root: Path)
    requires OnlyRemovesFilesUnder(a, b, root)
    ensures Dirs(a) == Dirs(b)
  {
  }

  /**
   * How many bytes of the record the three writes of `spool_request` leave
   * on disk when the kernel takes `headerAccepted`, `metaAccepted` and
   * `bodyAccepted` bytes from them; the body is only written when non-empty.
   */
  function RecordWritten(metaLen: nat, bodyLen: nat, headerAccepted: nat, metaAccepted: nat,
                         bodyAccepted: nat): (n: nat)
    ensures n <= 4 + metaLen + bodyLen
    ensures n == 4 + metaLen + bodyLen
        <==> headerAccepted >= 4 && metaAccepted >= metaLen && (bodyLen > 0 ==> bodyAccepted >= bodyLen)
  {
    if headerAccepted < 4 then headerAccepted
    else if metaAccepted < metaLen then 4 + metaAccepted
    else if bodyAccepted < bodyLen then 4 + metaLen + bodyAccepted
    else 4 + metaLen + bodyLen
  }

  class FileSystem {
    var files: map<Path, Entry>

    constructor (files: map<Path, Entry>)
      ensures this.files == files
    {
      this.files := files;
    }

    /** `mkdir(p, 0777)`; the caller ignores the result. */
    method Mkdir(p: Path, mtime: int, refused: bool) returns (ok: bool)
      modifies this
      ensures ok == (p !in old(files) && !refused)
      ensures files == if ok then old(files)[p := Entry(Directory, [], mtime, true)] else old(files)
    {
      ok := p !in files && !refused;
      if ok {
        files := files[p := Entry(Directory, [], mtime, true)];
      }
    }

    /** `open(p, O_CREAT | O_EXCL | O_WRONLY, ...)`: never touches an existing entry. */
    method CreateExclusive(p: Path, mtime: int, refused: bool) returns (ok: bool)
      modifies this
      ensures ok == (p !in old(files) && !refused)
      ensures files == if ok then old(files)[p := NewFile(mtime)] else old(files)
    {
      ok := p !in files && !refused;
      if ok {
        files := files[p := NewFile(mtime)];
      }
    }

    /**
     * `write(fd, buf, |buf|)` on a file opened for writing: the kernel
     * takes `accepted` bytes or the whole buffer, whichever is less, and
     * the call returns that count.
     */
    method Write(p: Path, buf: seq<byte>, accepted: nat) returns (n: nat)
      requires p in files
      modifies this
      ensures n == if accepted < |buf| then accepted else |buf|
      ensures files == old(files)[p := old(files)[p].(data := old(files)[p].data + buf[..n])]
    {
      n := if accepted < |buf| then accepted else |buf|;
      files := files[p := files[p].(data := files[p].data + buf[..n])];
    }

    /**
     * The three writes of `spool_request` on a freshly created file: the
     * header (modifier1 17, the 16-bit size, modifier2 0), the metadata,
     * and the body when there is one, stopping at the first short write.
     * The file then holds the first `RecordWritten` bytes of the record;
     * `complete` says all of them were written in full.
     */
    method WriteRecord(p: Path, meta: seq<byte>, body: seq<byte>,
                       headerAccepted: nat, metaAccepted: nat, bodyAccepted: nat)
      returns (complete: bool)
      requires p in files && files[p].data == []
      modifies this
      ensures complete == (headerAccepted >= 4 && metaAccepted >= |meta|
                           && (|body| > 0 ==> bodyAccepted >= |body|))
      ensures p in files && files == old(files)[p := old(files)[p].(data := files[p].data)]
      ensures files[p].data
           == EncodeTask(meta, body)[..RecordWritten(|meta|, |body|, headerAccepted, metaAccepted, bodyAccepted)]
      ensures complete ==> files[p].data == EncodeTask(meta, body)
    {
      ghost var record := EncodeTask(meta, body);
      complete := false;
      var n := Write(p, EncodeHeader(SpoolHeader(|meta|)), headerAccepted);
      assert files == old(files)[p := old(files)[p].(data := files[p].data)];
      assert record[..4] == EncodeHeader(SpoolHeader(|meta|));
      if n != 4 {
        assert record[..n] == record[..4][..n];
        return;
      }
      assert files[p].data == record[..4];
      n := Write(p, meta, metaAccepted);
      assert files == old(files)[p := old(files)[p].(data := files[p].data)];
      assert record[..4 + n] == record[..4] + meta[..n];
      if n != |meta| { return; }
      if |body| > 0 {
        n := Write(p, body, bodyAccepted);
        assert files == old(files)[p := old(files)[p].(data := files[p].data)];
        assert record[..4 + |meta| + n] == record[..4 + |meta|] + body[..n];
        if n != |body| { return; }
      }
      assert record[..4 + |meta| + |body|] == record;
      complete := true;
    }

    /** `futimes(fd, {at, at})` on an open file. */
    method SetMtime(p: Path, at: int, refused: bool) returns (ok: bool)
      requires p in files
      modifies this
      ensures ok == !refused
      ensures files == if ok then old(files)[p := old(files)[p].(mtime := at)] else old(files)
    {
      ok := !refused;
      if ok {
        files := files[p := files[p].(mtime := at)];
      }
    }

    /**
     * `unlink(p)`: fails when there is no such entry, when it is a
     * directory, or when the operating system refuses (no write permission
     * on the directory, or a sticky directory and a file owned by someone else).
     */
    method Unlink(p: Path, refused: bool) returns (ok: bool)
      modifies this
      ensures ok == (p in old(files) && old(files)[p].kind != Directory && !refused)
      ensures files == if ok then old(files) - {p} else old(files)
    {
      ok := p in files && files[p].kind != Directory && !refused;
      if ok {
        files := files - {p};
      }
    }
  }
}

=== FILE: names.dfy ===
/**
 * Spool file names: how `spool_request` builds them and which directory
 * entries `spooler_manage_task` is willing to look at.
 */
module TaskNames {

  type Path = string

  /** `gettimeofday` result. */
  datatype Timeval = Timeval(sec: nat, usec: nat)

  /** The reserved prefix every spool file name starts with. */
  const Prefix: string := "uwsgi_spoolfile_on_"

  /** `filename` is a 1024-byte buffer: `snprintf` keeps at most 1023 characters. */
  const PathBufferSize: nat := 1024

  function Snprintf(s: string): (r: string)
    ensures |r| < PathBufferSize
    ensures r <= s
    ensures |s| < PathBufferSize ==> r == s
  {
    if |s| < PathBufferSize then s else s[..PathBufferSize - 1]
  }

  function DigitChar(d: nat): (c: char)
    requires d < 10
    ensures '0' <= c <= '9' && c as int - '0' as int == d
  {
    ('0' as int + d) as char
  }

  /** The number a string of decimal digits spells, most significant digit first. */
  function DigitsValue(s: string): nat
    requires forall i :: 0 <= i < |s| ==> '0' <= s[i] <= '9'
  {
    if s == [] then 0
    else 10 * DigitsValue(s[..|s| - 1]) + (s[|s| - 1] as int - '0' as int)
  }

  /** `%llu` of a non-negative number: its decimal digits, without leading zeros. */
  function Decimal(n: nat): (s: string)
    ensures |s| > 0
    ensures forall i :: 0 <= i < |s| ==> '0' <= s[i] <= '9'
    ensures DigitsValue(s) == n
    ensures |s| > 1 ==> s[0] != '0'
    decreases n
  {
    if n < 10 then [DigitChar(n)]
    else
      var s := Decimal(n / 10) + [DigitChar(n % 10)];
      assert s[..|s| - 1] == Decimal(n / 10);
      s
  }

  /** `%d` of an int. */
  function SignedDecimal(i: int): (s: string)
    ensures |s| > 0
    ensures Unseparated(s)
  {
    if i < 0 then "-" + Decimal(-i) else Decimal(i)
  }

  /** `%llu` and `%d` spell different numbers differently. */
  lemma SignedDecimalInjective(i: int, j: int)
    requires SignedDecimal(i) == SignedDecimal(j)
    ensures i == j
  {
    if i < 0 && j < 0 {
      assert Decimal(-i) == SignedDecimal(i)[1..];
    }
  }

  /** A field of a name: no `_` in it, so `_` marks where the next one starts. */
  predicate Unseparated(s: string)
  {
    forall k :: 0 <= k < |s| ==> s[k] != '_'
  }

  /** Joining with `_` can be undone when the first part holds no `_`. */
  lemma SplitAtSeparator(a: string, b: string, c: string, d: string)
    requires Unseparated(a) && Unseparated(c) && a + "_" + b == c + "_" + d
    ensures a == c && b == d
  {
    var x := a + "_" + b;
    FirstSeparator(a, b);
    FirstSeparator(c, d);
    assert |a| == |c|;
    assert a == x[..|a|] && c == x[..|c|];
    assert b == x[|a| + 1..] && d == x[|c| + 1..];
  }

  /** The first `_` of `a + "_" + b` is the one after `a`. */
  lemma FirstSeparator(a: string, b: string)
    requires Unseparated(a)
    ensures var x := a + "_" + b;
      x[|a|] == '_' && forall k :: 0 <= k < |a| ==> x[k] != '_'
  {
  }

  /** `fields` joined by `_`. */
  function JoinFields(fields: seq<string>): string
    requires |fields| > 0
  {
    if |fields| == 1 then fields[0] else fields[0] + "_" + JoinFields(fields[1..])
  }

  /** Fields without `_` joined by `_` can be told apart again. */
  lemma {:induction false} JoinFieldsInjective(fs: seq<string>, gs: seq<string>)
    requires 0 < |fs| == |gs|
    requires forall k :: 0 <= k < |fs| ==> Unseparated(fs[k]) && Unseparated(gs[k])
    requires JoinFields(fs) == JoinFields(gs)
    ensures fs == gs
  {
    if |fs| > 1 {
      SplitAtSeparator(fs[0], JoinFields(fs[1..]), gs[0], JoinFields(gs[1..]));
      JoinFieldsInjective(fs[1..], gs[1..]);
      assert fs == [fs[0]] + fs[1..] && gs == [gs[0]] + gs[1..];
    }
  }

  /** The numbers of a file name: pid, request number, core, seconds and microseconds. */
  function NameNumbers(pid: int, rn: int, coreId: int, tv: Timeval): (fields: seq<string>)
    ensures |fields| == 5 && forall k :: 0 <= k < 5 ==> Unseparated(fields[k])
  {
    [SignedDecimal(pid), SignedDecimal(rn), SignedDecimal(coreId), Decimal(tv.sec), Decimal(tv.usec)]
  }

  /** The fields of a file name: host, pid, request number, core, seconds and microseconds joined by `_`. */
  function NameFields(host: string, pid: int, rn: int, coreId: int, tv: Timeval): (f: string)
  {
    host + "_" + JoinFields(NameNumbers(pid, rn, coreId, tv))
  }

  /** The file name: the reserved prefix followed by the fields. */
  function TaskBaseName(host: string, pid: int, rn: int, coreId: int, tv: Timeval): (name: string)
    ensures HasPrefix(name)
  {
    var name := Prefix + NameFields(host, pid, rn, coreId, tv);
    assert name[..|Prefix|] == Prefix;
    name
  }

  /**
   * On one host, names built from different pids, request numbers, cores
   * or times are different.
   */
  lemma TaskBaseNameInjective(host: string, pid: int, rn: int, coreId: int, tv: Timeval,
                              pid': int, rn': int, coreId': int, tv': Timeval)
    requires TaskBaseName(host, pid, rn, coreId, tv) == TaskBaseName(host, pid', rn', coreId', tv')
    ensures pid == pid' && rn == rn' && coreId == coreId' && tv == tv'
  {
    var t := JoinFields(NameNumbers(pid, rn, coreId, tv));
    var t' := JoinFields(NameNumbers(pid', rn', coreId', tv'));
    StripHead(Prefix, host + "_", t, t');
    JoinFieldsInjective(NameNumbers(pid, rn, coreId, tv), NameNumbers(pid', rn', coreId', tv'));
    SignedDecimalInjective(pid, pid');
    SignedDecimalInjective(rn, rn');
    SignedDecimalInjective(coreId, coreId');
  }

  lemma StripHead(a: string, b: string, t: string, t': string)
    requires a + (b + t) == a + (b + t')
    ensures t == t'
  {
    assert t == (a + (b + t))[|a| + |b|..];
    assert t' == (a + (b + t'))[|a| + |b|..];
  }

  /** The directory the file goes into: `<root>/<priority>`, cut to the buffer. */
  function PriorityDir(spoolDir: Path, priority: string): (d: Path)
    ensures |d| < PathBufferSize && d <= spoolDir + "/" + priority
    ensures |spoolDir| + 1 + |priority| < PathBufferSize ==> d == spoolDir + "/" + priority
  {
    Snprintf(spoolDir + "/" + priority)
  }

  /** The path `spool_request` formats into `filename`, truncated as `snprintf` does. */
  function TaskPath(spoolDir: Path, priority: Option<string>, host: string, pid: int,
                    rn: int, coreId: int, tv: Timeval): (p: Path)
    ensures |p| < PathBufferSize
  {
    Snprintf(TaskDir(spoolDir, priority) + "/" + TaskBaseName(host, pid, rn, coreId, tv))
  }

  /** The directory part of the path `spool_request` formats. */
  function TaskDir(spoolDir: Path, priority: Option<string>): Path
  {
    if priority.Some? then spoolDir + "/" + priority.value else spoolDir
  }

  /**
   * Two paths `spool_request` formats for the same directory and host
   * without `snprintf` cutting them are equal only for equal pids, request
   * numbers, cores and times.
   */
  lemma TaskPathInjective(spoolDir: Path, priority: Option<string>, host: string,
                          pid: int, rn: int, coreId: int, tv: Timeval,
                          pid': int, rn': int, coreId': int, tv': Timeval)
    requires |TaskDir(spoolDir, priority)| + 1 + |TaskBaseName(host, pid, rn, coreId, tv)| < PathBufferSize
    requires |TaskDir(spoolDir, priority)| + 1 + |TaskBaseName(host, pid', rn', coreId', tv')| < PathBufferSize
    requires TaskPath(spoolDir, priority, host, pid, rn, coreId, tv)
             == TaskPath(spoolDir, priority, host, pid', rn', coreId', tv')
    ensures pid == pid' && rn == rn' && coreId == coreId' && tv == tv'
  {
    var dir := TaskDir(spoolDir, priority);
    var base := TaskBaseName(host, pid, rn, coreId, tv);
    var base' := TaskBaseName(host, pid', rn', coreId', tv');
    assert base == (dir + "/" + base)[|dir| + 1..];
    assert base' == (dir + "/" + base')[|dir| + 1..];
    TaskBaseNameInjective(host, pid, rn, coreId, tv, pid', rn', coreId', tv');
  }

  datatype Option<T> = None | Some(value: T)

  /** The name starts with the 19-character reserved prefix. */
  predicate HasPrefix(name: string)
  {
    |name| >= |Prefix| && name[..|Prefix|] == Prefix
  }

  /**
   * The name test of `spooler_manage_task`: the reserved prefix, or, in
   * ordered mode only, a name that `is_a_number` accepts.
   */
  predicate IsCandidate(name: string, ordered: bool, isNumber: string -> bool): (ok: bool)
    ensures HasPrefix(name) ==> ok
    ensures ok && !ordered ==> |name| >= 19 && name[..19] == "uwsgi_spoolfile_on_"
    ensures ok && !HasPrefix(name) ==> ordered && isNumber(name)
  {
    HasPrefix(name) || (ordered && isNumber(name))
  }

  /** Where a file lives relative to a directory the scanner walks. */
  function Join(dir: Path, name: string): Path
  {
    dir + "/" + name
  }

  /** `p` lies somewhere inside directory `dir`. */
  predicate Below(p: Path, dir: Path)
  {
    |p| > |dir| && p[..|dir| + 1] == dir + "/"
  }

  lemma JoinIsBelow(dir: Path, name: string)
    ensures Below(Join(dir, name), dir)
  {
    assert Join(dir, name)[..|dir| + 1] == dir + "/";
  }

  lemma BelowTransitive(p: Path, q: Path, dir: Path)
    requires Below(p, q) && Below(q, dir)
    ensures Below(p, dir)
  {
    assert p[..|dir| + 1] == p[..|q| + 1][..|dir| + 1];
    assert q[..|dir| + 1] == (q + "/")[..|dir| + 1];
  }

  /**
   * Formatting `dir/base` into the buffer keeps `dir/` in front and, when
   * there is room for it, the reserved prefix of `base` right after it.
   */
  lemma FormattedKeepsPrefix(dir: Path, base: string)
    requires |dir| + 1 + |Prefix| < PathBufferSize && HasPrefix(base)
    ensures var p := Snprintf(dir + "/" + base);
      && |p| > |dir| + 1
      && p[..|dir| + 1] == dir + "/"
      && HasPrefix(p[|dir| + 1..])
  {
    var full := dir + "/" + base;
    var p := Snprintf(full);
    assert full[..|dir| + 1] == dir + "/";
    assert full[|dir| + 1..] == base;
    assert |p| >= |dir| + 1 + |Prefix|;
    assert p[..|dir| + 1] == full[..|dir| + 1];
    assert p[|dir| + 1..][..|Prefix|] == base[..|Prefix|];
  }

  /**
   * A name produced by `spool_request` without a priority, as the scanner
   * of the spool root sees it, passes the name test in either mode as long
   * as `snprintf` did not cut into the prefix.
   */
  lemma SpooledNameIsCandidate(spoolDir: Path, host: string, pid: int, rn: int, coreId: int,
                               tv: Timeval, ordered: bool, isNumber: string -> bool)
    requires |spoolDir| + 1 + |Prefix| < PathBufferSize
    ensures var p := TaskPath(spoolDir, None, host, pid, rn, coreId, tv);
      && |p| > |spoolDir| + 1
      && p[..|spoolDir| + 1] == spoolDir + "/"
      && IsCandidate(p[|spoolDir| + 1..], ordered, isNumber)
  {
    FormattedKeepsPrefix(spoolDir, TaskBaseName(host, pid, rn, coreId, tv));
  }
}

=== FILE: properties.dfy ===
/**
 * Properties that relate the producer and the consumer side of the spool:
 * what a file left by `spool_request` turns into when `spooler_manage_task`
 * picks it up, and the order of lock, close and handler events.
 */
module SpoolProperties {
  import opened TaskCodec
  import opened TaskNames
  import opened SpoolFs
  import opened SpoolEvents
  import opened Dispatch
  import opened Candidates
  import opened Traversal
  import opened Spooler

  /**
   * A task spooled in full, with metadata that fits the 16-bit size field,
   * reaches the handlers with exactly the metadata and body that were
   * enqueued, and is destroyed exactly when the handler that claims it
   * returns -2.
   */
  lemma SpooledTaskIsDispatched(base: map<Path, Entry>, path: Path, meta: seq<byte>, body: seq<byte>,
                                mtime: int, created: int, eio: EnqueueIo, task: string, io: ScanIo,
                                plugins: seq<Option<Handler>>)
    requires |meta| <= MaxMetadata
    ensures var files := EnqueueFiles(base, Spooled, path, meta, body, mtime, created, eio);
      && path in files && files[path].kind == Regular && files[path].accessible
      && var h := Handle(path, files[path], task, io, plugins);
      && (io.openFails(path) ==> h == NotOpened)
      && (!io.openFails(path) && io.flockFails(path) ==> h == NotLocked)
      && (!io.openFails(path) && !io.flockFails(path) ==>
            h == Dispatched(meta, body, Claim(plugins, 0, task, meta, body)))
      && var v := Claim(plugins, 0, task, meta, body);
      && (Destroys(h) <==> !io.openFails(path) && !io.flockFails(path) && v.Claimed? && v.ret == SpoolOk)
  {
    RoundTrip(meta, body);
  }

  /**
   * When `flock` fails after the exclusive create, `spool_request` leaves an
   * empty file behind. Once its mtime is reached it passes the screening,
   * but its header read comes back short, so it is never dispatched and
   * never removed.
   */
  lemma LockFailureLeavesStrandedFile(base: map<Path, Entry>, path: Path, meta: seq<byte>,
                                      body: seq<byte>, mtime: int, created: int, eio: EnqueueIo, task: string,
                                      now: int, ordered: bool, isNumber: string -> bool,
                                      io: ScanIo, plugins: seq<Option<Handler>>)
    requires IsCandidate(task, ordered, isNumber) && created <= now
    ensures var files := EnqueueFiles(base, LockFailed, path, meta, body, mtime, created, eio);
      && path in files && files[path].data == []
      && Screen(task, Lookup(files, path), now, ordered, isNumber) == Process
      && var h := Handle(path, files[path], task, io, plugins);
      && (h == NotOpened || h == NotLocked || h == HeaderUnread)
      && !Destroys(h)
  {
  }

  /** An existing file is never replaced: the exclusive create fails and the map is unchanged there. */
  lemma ExistingFileUntouched(base: map<Path, Entry>, path: Path, priority: Option<string>,
                              io: EnqueueIo, meta: seq<byte>, body: seq<byte>, mtime: int, created: int)
    requires path in base
    ensures var o := EnqueueResult(base, path, priority, io, meta, body);
      && o != Spooled
      && EnqueueFiles(base, o, path, meta, body, mtime, created, io) == base
  {
  }

  /**
   * Every way out of `spool_request` takes the spooler lock once, first,
   * and releases it once.
   */
  lemma EnqueueLockBalanced(o: EnqueueOutcome, path: Path, spoolerPid: int)
    ensures var e := Released([SpoolerLock], o, path, spoolerPid);
      && e[0] == SpoolerLock
      && Count(e, SpoolerLock) == 1
      && Count(e, SpoolerUnlock) == 1
  {
    forall x | x == SpoolerLock || x == SpoolerUnlock
      ensures Count(Released([SpoolerLock], o, path, spoolerPid), x) == 1
    {
      CountOnce(o, path, spoolerPid, x);
    }
  }

  lemma CountOnce(o: EnqueueOutcome, path: Path, spoolerPid: int, x: Event)
    requires x == SpoolerLock || x == SpoolerUnlock
    ensures Count(Released([SpoolerLock], o, path, spoolerPid), x) == 1
  {
    var l := [SpoolerLock];
    CountSnoc([], SpoolerLock, x);
    assert [] + [SpoolerLock] == l;
    var e := Released(l, o, path, spoolerPid);
    match o
    case FormatFailed =>
      CountSnoc(l, SpoolerUnlock, x);
    case OpenFailed =>
      CountSnoc(l, SpoolerUnlock, x);
    case LockFailed =>
      var a := l + [FileClosed(path)];
      assert e == a + [SpoolerUnlock];
      CountSnoc(l, FileClosed(path), x);
      CountSnoc(a, SpoolerUnlock, x);
    case ShortWrite =>
      var a := l + [FileLocked(path)];
      var b := a + [SpoolerUnlock];
      assert e == b + [FileClosed(path)];
      CountSnoc(l, FileLocked(path), x);
      CountSnoc(a, SpoolerUnlock, x);
      CountSnoc(b, FileClosed(path), x);
    case Spooled =>
      var a := l + [FileLocked(path)];
      var b := a + [FileClosed(path)];
      var u := b + [SpoolerUnlock];
      assert e == u || e == u + [Wake(spoolerPid)];
      CountSnoc(l, FileLocked(path), x);
      CountSnoc(a, FileClosed(path), x);
      CountSnoc(b, SpoolerUnlock, x);
      CountSnoc(u, Wake(spoolerPid), x);
  }

  /**
   * The spooler is woken exactly when the task was spooled and its pid is
   * known, and the new file is locked exactly when its contents get written.
   */
  lemma EnqueueWakesOnSuccess(o: EnqueueOutcome, path: Path, spoolerPid: int)
    ensures var e := Released([SpoolerLock], o, path, spoolerPid);
      && (Wake(spoolerPid) in e <==> o == Spooled && spoolerPid > 0)
      && (FileLocked(path) in e <==> o == ShortWrite || o == Spooled)
  {
  }

  /**
   * The consumer's lock on a task file is dropped (by closing it) before
   * any handler runs; with a harakiri budget every handler call is
   * immediately preceded by arming the watchdog and followed by disarming it.
   */
  lemma HandlersRunUnlocked(h: Handling, p: Path, task: string, harakiri: int,
                            plugins: seq<Option<Handler>>, dies: bool)
    requires h.Dispatched? && harakiri > 0
    ensures var e := Handled([], h, p, task, harakiri, plugins, dies);
      && |e| >= 2 && e[0] == FileLocked(p) && e[1] == FileClosed(p)
      && forall k :: 0 <= k < |e| && e[k].Invoke? ==>
           2 < k < |e| - 1 && e[k - 1] == ArmHarakiri(harakiri) && e[k + 1] == DisarmHarakiri
  {
    var slots := Called(plugins, 0, task, h.meta, h.body);
    var b := Bracketed(harakiri, slots, task);
    var u := [] + [FileLocked(p)] + [FileClosed(p)] + b;
    var e := Handled([], h, p, task, harakiri, plugins, dies);
    assert e == u || e == u + [NoHandler(task)];
    assert u == [FileLocked(p), FileClosed(p)] + b;
    forall k | 0 <= k < |e| && e[k].Invoke?
      ensures 2 < k < |e| - 1 && e[k - 1] == ArmHarakiri(harakiri) && e[k + 1] == DisarmHarakiri
    {
      assert 2 <= k < |u|;
      assert b[k - 2] == e[k];
      InvokeBracketed(harakiri, slots, task, k - 2);
      assert b[k - 3] == e[k - 1] && b[k - 1] == e[k + 1];
    }
  }

  /**
   * A due task file whose header announces more metadata than the file
   * holds is destroyed without any hook being called; when the destroy
   * is refused the process exits before closing the file.
   */
  lemma CorruptTaskDestroyed(sp: Spooler, s: Progress, v: Visit, io: ScanIo)
    requires !s.died
    requires var p := Join(v.dir, v.name);
      && p in s.files
      && Screen(v.name, Some(s.files[p]), io.now, sp.ordered, sp.isNumber) == Process
      && !io.openFails(p) && !io.flockFails(p)
      && |s.files[p].data| >= 4
      && DecodeHeader(s.files[p].data[..4]).pktsize as int > |s.files[p].data| - 4
    ensures var p := Join(v.dir, v.name);
      var r := sp.Step(s, v, io);
      && r.died == DestroyRefused(v.dir, p, io)
      && r.files == (if r.died then s.files else s.files - {p})
      && r.trace == s.trace + [FileLocked(p)] + (if r.died then [] else [FileClosed(p)])
      && forall x :: x in r.trace[|s.trace|..] ==> !x.Invoke?
  {
    var p := Join(v.dir, v.name);
    var h := Handle(p, s.files[p], v.name, io, sp.plugins);
    assert h == Corrupt;
    HandledHooks(s.trace, h, p, v.name, sp.harakiri, sp.plugins, DestroyRefused(v.dir, p, io));
  }

  /**
   * A due task that is read whole but that every plugin slot declines is
   * kept, the process goes on, and the "no handler" line is logged.
   */
  lemma UnclaimedTaskKept(sp: Spooler, s: Progress, v: Visit, io: ScanIo)
    requires !s.died
    requires var p := Join(v.dir, v.name);
      && p in s.files
      && Screen(v.name, Some(s.files[p]), io.now, sp.ordered, sp.isNumber) == Process
      && var h := Handle(p, s.files[p], v.name, io, sp.plugins);
      && h.Dispatched?
      && forall j :: 0 <= j < |sp.plugins| ==> Declines(sp.plugins[j], v.name, h.meta, h.body)
    ensures var r := sp.Step(s, v, io);
      && r.files == s.files && !r.died
      && NoHandler(v.name) in r.trace[|s.trace|..]
  {
    var p := Join(v.dir, v.name);
    var h := Handle(p, s.files[p], v.name, io, sp.plugins);
    ClaimIsFirst(sp.plugins, 0, v.name, h.meta, h.body);
    HandledHooks(s.trace, h, p, v.name, sp.harakiri, sp.plugins, false);
  }

  /**
   * A task scheduled for later survives a pass untouched: no visit finds it
   * due, so nothing the walk does can remove or change it.
   */
  lemma FutureTaskSurvives(sp: Spooler, s: Progress, vs: seq<Visit>, io: ScanIo, q: Path)
    requires !s.died && q in s.files && s.files[q].mtime > io.now
    ensures var r := sp.Replay(s, vs, io);
      q in r.files && r.files[q] == s.files[q]
  {
    sp.ReplayRemoves(s, vs, io);
    forall k | 0 <= k < |vs| && Join(vs[k].dir, vs[k].name) == q
      ensures !sp.DueAndDestroyed(s.files, vs[k], io)
    {
    }
  }
}

=== FILE: screen.dfy ===
/**
 * The checks `spooler_manage_task` makes on a directory entry before it
 * opens anything: the name test, `lstat`, the schedule, the file type and
 * `access`.
 */
module Candidates {
  import opened TaskNames
  import opened SpoolFs

  /** What the checks before opening a directory entry decide. */
  datatype Screening = Ignore | Recurse | Process

  /**
   * `spooler_manage_task` up to the `open`: the name test, `lstat` (a
   * missing entry is `None`), the future-mtime test, the recursion into
   * directories in ordered mode, the regular-file test and `access`.
   */
  function Screen(name: string, entry: Option<Entry>, now: int, ordered: bool,
                  isNumber: string -> bool): (s: Screening)
    ensures s == Process <==>
      && IsCandidate(name, ordered, isNumber)
      && entry.Some? && entry.value.mtime <= now
      && entry.value.kind == Regular && entry.value.accessible
    ensures s == Recurse <==>
      && IsCandidate(name, ordered, isNumber)
      && entry.Some? && entry.value.mtime <= now
      && entry.value.kind == Directory && ordered
  {
    if !IsCandidate(name, ordered, isNumber) then Ignore
    else if entry.None? then Ignore
    else if entry.value.mtime > now then Ignore
    else if entry.value.kind == Directory && ordered then Recurse
    else if entry.value.kind != Regular then Ignore
    else if entry.value.accessible then Process
    else Ignore
  }
}

=== FILE: spooler.dfy ===
/**
 * The spooler proper: the shared `uwsgi` state it reads and updates, the
 * enqueue path run by workers (`spool_request`, `uwsgi_request_spooler`)
 * and the consumer path run by the spooler process (`destroy_spool`,
 * `spooler_manage_task`, `spooler_scandir`, `spooler_readdir`).
 */
module Spooler {
  import opened TaskCodec
  import opened TaskNames
  import opened SpoolFs
  import opened SpoolEvents
  import opened Dispatch
  import opened Candidates
  import opened Traversal

  // ---------------------------------------------------------------------
  // Enqueue

  /** What the operating system does on the enqueue path beyond the file map. */
  datatype EnqueueIo = EnqueueIo(
    dirFormatFails: bool,    // snprintf of the priority directory returned <= 0
    nameFormatFails: bool,   // snprintf of the file name returned <= 0
    mkdirRefused: bool,      // mkdir failed although the name was free
    openRefused: bool,       // open(O_CREAT | O_EXCL) failed although the name was free
    flockFails: bool,
    headerAccepted: nat,     // bytes the kernel takes from each of the three writes
    metaAccepted: nat,
    bodyAccepted: nat,
    futimesRefused: bool,
    unlinkRefused: bool)     // unlink() of the new file refused by the operating system

  /** Both `snprintf` calls that run produced a name. */
  predicate Formatted(priority: Option<string>, io: EnqueueIo)
  {
    !io.nameFormatFails && (priority.Some? ==> !io.dirFormatFails)
  }

  /** Header, metadata and (when non-empty) body were written in full. */
  predicate WritesComplete(io: EnqueueIo, meta: seq<byte>, body: seq<byte>)
  {
    io.headerAccepted >= 4 && io.metaAccepted >= |meta| && (|body| > 0 ==> io.bodyAccepted >= |body|)
  }

  /** The file map once the (best-effort) `mkdir` of the priority directory ran. */
  function AfterMkdir(files: map<Path, Entry>, spoolDir: Path, priority: Option<string>,
                      io: EnqueueIo, mtime: int): (r: map<Path, Entry>)
    ensures files.Keys <= r.Keys
    ensures forall p :: p in files ==> r[p] == files[p]
    ensures priority.None? || io.dirFormatFails ==> r == files
    ensures priority.Some? && !io.dirFormatFails ==>
      var d := PriorityDir(spoolDir, priority.value);
      && r.Keys <= files.Keys + {d}
      && (d !in files && !io.mkdirRefused ==> d in r && r[d].kind == Directory)
      && (io.mkdirRefused ==> r == files)
  {
    if priority.Some? && !io.dirFormatFails then
      var d := PriorityDir(spoolDir, priority.value);
      if d !in files && !io.mkdirRefused then files[d := Entry(Directory, [], mtime, true)] else files
    else files
  }

  /** The mtime `spool_request` leaves: `at` when positive and `futimes` worked. */
  function ScheduledMtime(at: int, created: int, io: EnqueueIo): (mtime: int)
    ensures at <= 0 || io.futimesRefused ==> mtime == created
    ensures at > 0 && !io.futimesRefused ==> mtime == at
  {
    if at > 0 && !io.futimesRefused then at else created
  }

  /** Where `spool_request` returns. */
  datatype EnqueueOutcome = FormatFailed | OpenFailed | LockFailed | ShortWrite | Spooled

  /** Where `spool_request` returns once it has a file name. */
  function CreateResult(base: map<Path, Entry>, path: Path, io: EnqueueIo,
                        meta: seq<byte>, body: seq<byte>): (o: EnqueueOutcome)
    ensures o != FormatFailed
    ensures o == OpenFailed <==> path in base || io.openRefused
    ensures o == LockFailed <==> path !in base && !io.openRefused && io.flockFails
    ensures o == ShortWrite <==>
      path !in base && !io.openRefused && !io.flockFails && !WritesComplete(io, meta, body)
    ensures o == Spooled <==>
      path !in base && !io.openRefused && !io.flockFails && WritesComplete(io, meta, body)
  {
    if path in base || io.openRefused then OpenFailed
    else if io.flockFails then LockFailed
    else if !WritesComplete(io, meta, body) then ShortWrite
    else Spooled
  }

  function EnqueueResult(base: map<Path, Entry>, path: Path, priority: Option<string>,
                         io: EnqueueIo, meta: seq<byte>, body: seq<byte>): (o: EnqueueOutcome)
    ensures o == FormatFailed <==> !Formatted(priority, io)
    ensures o == OpenFailed <==> Formatted(priority, io) && (path in base || io.openRefused)
    ensures o == LockFailed <==>
      Formatted(priority, io) && path !in base && !io.openRefused && io.flockFails
    ensures o == ShortWrite <==>
      && Formatted(priority, io) && path !in base && !io.openRefused && !io.flockFails
      && !WritesComplete(io, meta, body)
    ensures o == Spooled <==>
      && Formatted(priority, io) && path !in base && !io.openRefused && !io.flockFails
      && WritesComplete(io, meta, body)
  {
    if !Formatted(priority, io) then FormatFailed
    else CreateResult(base, path, io, meta, body)
  }

  /**
   * `t` extended by the events of `spool_request` once the new file is
   * locked: on success close, unlock, wake the spooler; after a short
   * write unlock, then close.
   */
  function Finished(t: seq<Event>, complete: bool, path: Path, spoolerPid: int): (u: seq<Event>)
    ensures |u| == |t| + (if complete && spoolerPid > 0 then 3 else 2)
  {
    if complete then
      var u := t + [FileClosed(path)] + [SpoolerUnlock];
      if spoolerPid > 0 then u + [Wake(spoolerPid)] else u
    else t + [SpoolerUnlock] + [FileClosed(path)]
  }

  /**
   * `t` extended by the events of `spool_request` after the spooler lock
   * is taken, on each way out.
   */
  function Released(t: seq<Event>, o: EnqueueOutcome, path: Path, spoolerPid: int): (u: seq<Event>)
    ensures |t| < |u| <= |t| + 4
  {
    match o
    case FormatFailed => t + [SpoolerUnlock]
    case OpenFailed => t + [SpoolerUnlock]
    case LockFailed => t + [FileClosed(path)] + [SpoolerUnlock]
    case ShortWrite => Finished(t + [FileLocked(path)], false, path, spoolerPid)
    case Spooled => Finished(t + [FileLocked(path)], true, path, spoolerPid)
  }

  /** What the writes of `spool_request` put in the file before the first short one. */
  function WrittenPart(io: EnqueueIo, meta: seq<byte>, body: seq<byte>): (part: seq<byte>)
    ensures part <= EncodeTask(meta, body)
    ensures |part| == |EncodeTask(meta, body)| <==> WritesComplete(io, meta, body)
  {
    EncodeTask(meta, body)[..RecordWritten(|meta|, |body|, io.headerAccepted, io.metaAccepted, io.bodyAccepted)]
  }

  /**
   * The file map `spool_request` leaves behind, given the map after `mkdir`:
   * the complete record, the empty file a failed `flock` strands, or the
   * partial record whose removal after a short write was refused.
   */
  function EnqueueFiles(base: map<Path, Entry>, o: EnqueueOutcome, path: Path, meta: seq<byte>,
                        body: seq<byte>, mtime: int, created: int, io: EnqueueIo): (files: map<Path, Entry>)
    ensures files.Keys <= base.Keys + {path}
    ensures forall q :: q in base && q != path ==> q in files && files[q] == base[q]
    ensures o == Spooled ==> path in files && files[path].data == EncodeTask(meta, body)
    ensures o == LockFailed ==> path in files && files[path].data == []
    ensures o == ShortWrite ==>
      if io.unlinkRefused then path in files && files[path].data == WrittenPart(io, meta, body)
      else files == base - {path}
    ensures o == FormatFailed || o == OpenFailed ==> files == base
  {
    match o
    case Spooled => base[path := Entry(Regular, EncodeTask(meta, body), mtime, true)]
    case LockFailed => base[path := NewFile(created)]
    case ShortWrite =>
      if io.unlinkRefused then base[path := Entry(Regular, WrittenPart(io, meta, body), created, true)]
      else base - {path}
    case _ => base
  }

  /** `uwsgi_request_spooler`'s view of a request: the packet body and the core id. */
  datatype Request = Request(buffer: seq<byte>, asyncId: int)

  /** modifier1 of every answer `uwsgi_request_spooler` sends. */
  const ReplyModifier1: byte := 255

  function Min(a: nat, b: nat): nat { if a < b then a else b }

  // ---------------------------------------------------------------------
  // Consumer

  /** What the operating system answers on the consumer path. */
  datatype ScanIo = ScanIo(
    now: int,                               // time(NULL)
    readdirOrder: Path -> seq<string>,      // the order readdir() returns a directory's entries in
    versionSorted: Path -> seq<string>,     // scandir(dir, ..., versionsort)
    versionLe: (string, string) -> bool,    // the order versionsort() sorts by
    listFails: Path -> bool,                // opendir() / scandir() failed
    chdirFails: Path -> bool,               // chdir() on the way down the walk failed
    destroyChdirFails: Path -> bool,        // the chdir() of destroy_spool() failed
    openFails: Path -> bool,
    flockFails: Path -> bool,
    unlinkRefused: Path -> bool)            // unlink() refused by the operating system
  {
    /** `scandir` lists the entries `readdir` lists, sorted by `versionsort`. */
    ghost predicate ListingsAgree()
    {
      forall d :: SortedBy(versionSorted(d), versionLe)
               && multiset(versionSorted(d)) == multiset(readdirOrder(d))
    }
  }

  function Lookup(files: map<Path, Entry>, p: Path): Option<Entry>
  {
    if p in files then Some(files[p]) else None
  }

  /** What happens to a candidate that passed `Screen` once it is opened. */
  datatype Handling =
    | NotOpened                                         // open failed
    | NotLocked                                         // flock failed: closed again
    | HeaderUnread                                      // short header read: file kept
    | Corrupt                                           // short metadata or body read: destroyed
    | Dispatched(meta: seq<byte>, body: seq<byte>, verdict: Verdict)

  function Handle(p: Path, e: Entry, task: string, io: ScanIo,
                  plugins: seq<Option<Handler>>): (h: Handling)
    ensures h == NotOpened <==> io.openFails(p)
    ensures h == NotLocked <==> !io.openFails(p) && io.flockFails(p)
    ensures h == HeaderUnread <==> !io.openFails(p) && !io.flockFails(p) && |e.data| < 4
    ensures h == Corrupt <==> !io.openFails(p) && !io.flockFails(p) && ReadTask(|e.data|, e.data).Truncated?
    ensures h.Dispatched? ==>
      && 4 + |h.meta| + |h.body| <= |e.data|
      && |h.meta| == DecodeHeader(e.data[..4]).pktsize as int
      && h.meta == e.data[4..4 + |h.meta|]
      && h.verdict == Claim(plugins, 0, task, h.meta, h.body)
  {
    if io.openFails(p) then NotOpened
    else if io.flockFails(p) then NotLocked
    else match ReadTask(|e.data|, e.data)
      case HeaderShort => HeaderUnread
      case Truncated(_) => Corrupt
      case Task(_, meta, body) => Dispatched(meta, body, Claim(plugins, 0, task, meta, body))
  }

  /** The task file is deleted: corrupt, or claimed by a handler returning -2. */
  predicate Destroys(h: Handling): (d: bool)
    ensures h.NotOpened? || h.NotLocked? || h.HeaderUnread? ==> !d
    ensures h.Corrupt? ==> d
    ensures h.Dispatched? && h.verdict.Claimed? && h.verdict.ret == SpoolOk ==> d
    ensures h.Dispatched? && (h.verdict.Unclaimed? || h.verdict.ret != SpoolOk) ==> !d
  {
    h.Corrupt? || (h.Dispatched? && h.verdict.Claimed? && h.verdict.ret == SpoolOk)
  }

  /**
   * `destroy_spool(dir, p)` fails on a present regular file: `dir` cannot
   * be entered again or the unlink is refused.
   */
  predicate DestroyRefused(dir: Path, p: Path, io: ScanIo)
  {
    io.destroyChdirFails(dir) || io.unlinkRefused(p)
  }

  /**
   * `t` extended by the events of handling a candidate `p`; `dies` says
   * that destroying the file ended the process, which then does not close
   * the file itself.
   */
  function Handled(t: seq<Event>, h: Handling, p: Path, task: string, harakiri: int,
                   plugins: seq<Option<Handler>>, dies: bool): (u: seq<Event>)
    ensures |u| >= |t| && u[..|t|] == t
    ensures h.NotOpened? <==> u == t
    ensures h.NotLocked? ==> u == t + [FileClosed(p)]
    ensures h.HeaderUnread? || h.Corrupt? || h.Dispatched? ==> u[|t|] == FileLocked(p)
    ensures h.HeaderUnread? || (h.Corrupt? && !dies) || h.Dispatched? ==>
      |u| > |t| + 1 && u[|t| + 1] == FileClosed(p)
  {
    match h
    case NotOpened => t
    case NotLocked => t + [FileClosed(p)]
    case HeaderUnread => t + [FileLocked(p)] + [FileClosed(p)]
    case Corrupt => if dies then t + [FileLocked(p)] else t + [FileLocked(p)] + [FileClosed(p)]
    case Dispatched(meta, body, v) =>
      var u := t + [FileLocked(p)] + [FileClosed(p)]
        + Bracketed(harakiri, Called(plugins, 0, task, meta, body), task);
      if v.Unclaimed? then u + [NoHandler(task)] else u
  }

  /**
   * Which hooks handling runs: none unless the task was read whole, and
   * then exactly the slots `Called` lists; the "no handler" line is logged
   * exactly when no hook claimed the task.
   */
  lemma HandledHooks(t: seq<Event>, h: Handling, p: Path, task: string, harakiri: int,
                     plugins: seq<Option<Handler>>, dies: bool)
    ensures var added := Handled(t, h, p, task, harakiri, plugins, dies)[|t|..];
      && (!h.Dispatched? ==> forall x :: x in added ==> !x.Invoke? && !x.NoHandler?)
      && (h.Dispatched? ==>
            && (forall x :: x in added && x.Invoke? ==>
                  x.task == task && x.slot in Called(plugins, 0, task, h.meta, h.body))
            && (NoHandler(task) in added <==> h.verdict.Unclaimed?))
  {
    var u := Handled(t, h, p, task, harakiri, plugins, dies);
    var added := u[|t|..];
    match h
    case NotOpened => assert added == [];
    case NotLocked => assert added == [FileClosed(p)];
    case HeaderUnread => assert added == [FileLocked(p), FileClosed(p)];
    case Corrupt => assert added == [FileLocked(p)] || added == [FileLocked(p), FileClosed(p)];
    case Dispatched(meta, body, v) =>
      var slots := Called(plugins, 0, task, meta, body);
      var w := [FileLocked(p), FileClosed(p)] + Bracketed(harakiri, slots, task);
      var tail := if v.Unclaimed? then w + [NoHandler(task)] else w;
      assert u == t + tail;
      assert added == tail;
      HookEventsLogged(p, task, harakiri, slots, v.Unclaimed?);
  }

  /** The events after the header read of a dispatched task: calls of `slots` only, and the log line when asked. */
  lemma HookEventsLogged(p: Path, task: string, harakiri: int, slots: seq<nat>, unclaimed: bool)
    ensures var w := [FileLocked(p), FileClosed(p)] + Bracketed(harakiri, slots, task);
      var tail := if unclaimed then w + [NoHandler(task)] else w;
      && (forall x :: x in tail && x.Invoke? ==> x.task == task && x.slot in slots)
      && (NoHandler(task) in tail <==> unclaimed)
  {
    var b := Bracketed(harakiri, slots, task);
    BracketedEvents(harakiri, slots, task);
    var w := [FileLocked(p), FileClosed(p)] + b;
    assert NoHandler(task) !in w;
    forall x | x in w && x.Invoke?
      ensures x.task == task && x.slot in slots
    {
      assert x in b;
    }
  }

  /** How far the consumer has got: the files, the events, and whether the process exited. */
  datatype Progress = Progress(files: map<Path, Entry>, trace: seq<Event>, died: bool)

  /** Directories strictly inside `dir`: what the priority recursion can still enter. */
  function SubDirs(dirs: set<Path>, dir: Path): set<Path>
  {
    set p | p in dirs && Below(p, dir)
  }

  lemma SubDirsShrink(dirs: set<Path>, dir: Path, name: string)
    requires Join(dir, name) in dirs
    ensures SubDirs(dirs, Join(dir, name)) < SubDirs(dirs, dir)
  {
    var c := Join(dir, name);
    JoinIsBelow(dir, name);
    forall p | p in SubDirs(dirs, c)
      ensures p in SubDirs(dirs, dir)
    {
      BelowTransitive(p, c, dir);
    }
    assert c in SubDirs(dirs, dir) && c !in SubDirs(dirs, c);
  }

  /** `visits` grew by one call for `task` in `dir`, then calls strictly inside `dir`. */
  ghost predicate VisitedThen(before: seq<Visit>, after: seq<Visit>, dir: Path, task: string)
  {
    && |after| > |before|
    && after[..|before| + 1] == before + [Visit(dir, task)]
    && forall k :: |before| < k < |after| ==> Below(after[k].dir, dir)
  }

  /** `visits` grew only by calls in `dir` or inside it. */
  ghost predicate VisitedWithin(before: seq<Visit>, after: seq<Visit>, dir: Path)
  {
    && |after| >= |before|
    && after[..|before|] == before
    && forall k :: |before| <= k < |after| ==> after[k].dir == dir || Below(after[k].dir, dir)
  }

  /**
   * One more call of `spooler_manage_task` in `dir` keeps the walk of `dir`
   * within `dir` and adds exactly its entry to the names visited there.
   */
  lemma VisitStep(start: seq<Visit>, v0: seq<Visit>, v1: seq<Visit>, dir: Path, task: string)
    requires VisitedWithin(start, v0, dir) && VisitedThen(v0, v1, dir, task)
    ensures VisitedWithin(start, v1, dir) && v1[..|v0|] == v0
    ensures NamesIn(v1[|start|..], dir) == NamesIn(v0[|start|..], dir) + [task]
  {
    assert v1[..|v0|] == v1[..|v0| + 1][..|v0|];
    NamesInExtend(v0, v1, |start|, dir, task);
    assert v1[..|start|] == v1[..|v0| + 1][..|start|];
    forall k | |start| <= k < |v1|
      ensures v1[k].dir == dir || Below(v1[k].dir, dir)
    {
      if k <= |v0| {
        assert v1[k] == (v0 + [Visit(dir, task)])[k];
      }
    }
  }

  // ---------------------------------------------------------------------

  /** The process-wide `uwsgi` state the spooler code reads and writes. */
  class Spooler {
    const spoolDir: Option<Path>             // uwsgi.spool_dir; None: the spooler is off
    const hostname: string                   // uwsgi.hostname
    const ordered: bool                      // uwsgi.spooler_ordered
    const harakiri: int                      // options[UWSGI_OPTION_SPOOLER_HARAKIRI]
    const plugins: seq<Option<Handler>>      // uwsgi.p[i]->spooler
    const isNumber: string -> bool           // is_a_number
    const fs: FileSystem

    var spoolerPid: int                      // uwsgi.shared->spooler_pid
    var lockHeld: bool                       // uwsgi.spooler_lock
    var died: bool                           // the running process called exit(1)
    var trace: seq<Event>
    ghost var visits: seq<Visit>             // calls of spooler_manage_task, in order

    constructor (spoolDir: Option<Path>, hostname: string, ordered: bool, harakiri: int,
                 plugins: seq<Option<Handler>>, isNumber: string -> bool, fs: FileSystem,
                 spoolerPid: int)
      ensures this.spoolDir == spoolDir && this.hostname == hostname && this.ordered == ordered
      ensures this.harakiri == harakiri && this.plugins == plugins && this.isNumber == isNumber
      ensures this.fs == fs && this.spoolerPid == spoolerPid
      ensures !lockHeld && !died && trace == [] && visits == []
    {
      this.spoolDir := spoolDir;
      this.hostname := hostname;
      this.ordered := ordered;
      this.harakiri := harakiri;
      this.plugins := plugins;
      this.isNumber := isNumber;
      this.fs := fs;
      this.spoolerPid := spoolerPid;
      lockHeld := false;
      died := false;
      trace := [];
      visits := [];
    }

    /**
     * `spool_request`: under the spooler lock, name the file (creating the
     * priority directory first when there is one), then `CreateTask`.
     * Returns 1 on success and 0 otherwise; `filename` is the path built.
     */
    method SpoolRequest(pid: int, rn: int, coreId: int, buffer: seq<byte>, priority: Option<string>,
                        at: int, body: seq<byte>, tv: Timeval, io: EnqueueIo)
      returns (ret: int, filename: Path)
      requires spoolDir.Some? && !lockHeld
      modifies this, fs
      ensures !lockHeld && died == old(died) && spoolerPid == old(spoolerPid) && visits == old(visits)
      ensures var base := AfterMkdir(old(fs.files), spoolDir.value, priority, io, tv.sec);
        var path := TaskPath(spoolDir.value, priority, hostname, pid, rn, coreId, tv);
        var o := EnqueueResult(base, path, priority, io, buffer, body);
        && ret == (if o == Spooled then 1 else 0)
        && (o != FormatFailed ==> filename == path)
        && fs.files == EnqueueFiles(base, o, path, buffer, body, ScheduledMtime(at, tv.sec, io), tv.sec, io)
        && trace == Released(old(trace) + [SpoolerLock], o, path, spoolerPid)
    {
      lockHeld := true;
      trace := trace + [SpoolerLock];
      filename := "";
      if priority.Some? {
        if io.dirFormatFails {
          lockHeld := false;
          trace := trace + [SpoolerUnlock];
          return 0, filename;
        }
        // the outcome of mkdir is ignored
        var _ := fs.Mkdir(PriorityDir(spoolDir.value, priority.value), tv.sec, io.mkdirRefused);
      }
      assert fs.files == AfterMkdir(old(fs.files), spoolDir.value, priority, io, tv.sec);
      if io.nameFormatFails {
        lockHeld := false;
        trace := trace + [SpoolerUnlock];
        return 0, filename;
      }
      filename := TaskPath(spoolDir.value, priority, hostname, pid, rn, coreId, tv);
      ret := CreateTask(filename, buffer, at, body, tv, io);
    }

    /**
     * The rest of `spool_request`, with the spooler lock held and the name
     * built: create the file exclusively, lock it, write header, metadata
     * and body, set the mtime when `at > 0`, close it, release the spooler
     * lock and wake the spooler. On a short write the file is removed.
     */
    method CreateTask(filename: Path, buffer: seq<byte>, at: int, body: seq<byte>, tv: Timeval,
                      io: EnqueueIo) returns (ret: int)
      requires lockHeld
      modifies this, fs
      ensures !lockHeld && died == old(died) && spoolerPid == old(spoolerPid) && visits == old(visits)
      ensures var o := CreateResult(old(fs.files), filename, io, buffer, body);
        && ret == (if o == Spooled then 1 else 0)
        && fs.files == EnqueueFiles(old(fs.files), o, filename, buffer, body, ScheduledMtime(at, tv.sec, io), tv.sec, io)
        && trace == Released(old(trace), o, filename, spoolerPid)
    {
      var created := fs.CreateExclusive(filename, tv.sec, io.openRefused);
      if !created {
        lockHeld := false;
        trace := trace + [SpoolerUnlock];
        return 0;
      }
      if io.flockFails {
        trace := trace + [FileClosed(filename)];
        lockHeld := false;
        trace := trace + [SpoolerUnlock];
        return 0;
      }
      trace := trace + [FileLocked(filename)];
      ret := WriteTask(filename, buffer, at, body, tv, io);
    }

    /**
     * The writes of `spool_request` on the new, locked file: header,
     * metadata, body, then `futimes` when `at > 0`; close, unlock the
     * spooler lock, and wake the spooler. After a short write (`goto
     * clear`) the spooler lock is released and the file removed instead,
     * unless the operating system refuses, which leaves the partial record.
     */
    method WriteTask(filename: Path, buffer: seq<byte>, at: int, body: seq<byte>, tv: Timeval,
                     io: EnqueueIo) returns (ret: int)
      requires lockHeld && filename in fs.files && fs.files[filename] == NewFile(tv.sec)
      modifies this, fs
      ensures !lockHeld && died == old(died) && spoolerPid == old(spoolerPid) && visits == old(visits)
      ensures var complete := WritesComplete(io, buffer, body);
        && ret == (if complete then 1 else 0)
        && fs.files == (if complete
                        then old(fs.files)[filename := Entry(Regular, EncodeTask(buffer, body),
                                                             ScheduledMtime(at, tv.sec, io), true)]
                        else if io.unlinkRefused
                        then old(fs.files)[filename := Entry(Regular, WrittenPart(io, buffer, body), tv.sec, true)]
                        else old(fs.files) - {filename})
        && trace == Finished(old(trace), complete, filename, spoolerPid)
    {
      var complete := fs.WriteRecord(filename, buffer, body, io.headerAccepted, io.metaAccepted, io.bodyAccepted);
      if !complete {
        // the clean-up path after a short write
        lockHeld := false;
        trace := trace + [SpoolerUnlock];
        var _ := fs.Unlink(filename, io.unlinkRefused);
        trace := trace + [FileClosed(filename)];
        return 0;
      }

      if at > 0 {
        var _ := fs.SetMtime(filename, at, io.futimesRefused);
      }
      trace := trace + [FileClosed(filename)];
      lockHeld := false;
      trace := trace + [SpoolerUnlock];
      if spoolerPid > 0 {
        trace := trace + [Wake(spoolerPid)];
      }
      return 1;
    }

    /**
     * `uwsgi_request_spooler`: refuse when the spooler is off, otherwise
     * spool the request body as metadata (no priority, no schedule, no
     * body) and answer the client with a 255/0/1 or 255/0/0 packet. When
     * the answer cannot be written after a successful spool, the file is
     * removed again, and the process exits when that is refused. Returns 0
     * on success and -1 otherwise.
     */
    method RequestSpooler(req: Request, requests: int, pid: int, tv: Timeval, io: EnqueueIo,
                          replyAccepted: nat) returns (ret: int)
      requires !lockHeld && !died
      modifies this, fs
      ensures !lockHeld && spoolerPid == old(spoolerPid) && visits == old(visits)
      ensures spoolDir.None? ==>
        && !died && ret == -1 && fs.files == old(fs.files)
        && trace == old(trace) + [EmptyPacket(ReplyModifier1, 0)]
      ensures spoolDir.Some? ==>
        var path := TaskPath(spoolDir.value, None, hostname, pid, requests + 1, req.asyncId, tv);
        var o := EnqueueResult(old(fs.files), path, None, io, req.buffer, []);
        var reply := EncodeHeader(Header(ReplyModifier1, 0, if o == Spooled then 1 else 0));
        var removal := o == Spooled && replyAccepted < 4;
        && ret == (if o == Spooled then 0 else -1)
        && trace == Released(old(trace) + [SpoolerLock], o, path, spoolerPid)
                    + [Reply(reply[..Min(4, replyAccepted)])]
        && died == (removal && io.unlinkRefused)
        && fs.files == (if removal && !io.unlinkRefused then old(fs.files)
                        else EnqueueFiles(old(fs.files), o, path, req.buffer, [], tv.sec, tv.sec, io))
    {
      if spoolDir.None? {
        trace := trace + [EmptyPacket(ReplyModifier1, 0)];
        return -1;
      }
      ghost var before := fs.files;
      ghost var path := TaskPath(spoolDir.value, None, hostname, pid, requests + 1, req.asyncId, tv);
      ghost var o := EnqueueResult(before, path, None, io, req.buffer, []);
      assert AfterMkdir(before, spoolDir.value, None, io, tv.sec) == before;
      assert ScheduledMtime(0, tv.sec, io) == tv.sec;
      var i, spoolFilename := SpoolRequest(pid, requests + 1, req.asyncId, req.buffer, None, 0, [], tv, io);
      assert fs.files == EnqueueFiles(before, o, path, req.buffer, [], tv.sec, tv.sec, io);
      if i > 0 {
        assert o == Spooled && spoolFilename == path && path !in before;
        assert fs.files - {path} == before;
        ReplySpooled(spoolFilename, replyAccepted, io);
        return 0;
      }
      var reply := EncodeHeader(Header(ReplyModifier1, 0, 0));
      trace := trace + [Reply(reply[..Min(4, replyAccepted)])];
      return -1;
    }

    /**
     * The answer to a request whose body was spooled: a 255/0/1 header,
     * and, when it does not reach the client, the removal of the spool file;
     * the process exits when that removal is refused.
     */
    method ReplySpooled(filename: Path, replyAccepted: nat, io: EnqueueIo)
      requires filename in fs.files && fs.files[filename].kind == Regular
      modifies this, fs
      ensures lockHeld == old(lockHeld) && spoolerPid == old(spoolerPid) && visits == old(visits)
      ensures trace == old(trace) + [Reply(EncodeHeader(Header(ReplyModifier1, 0, 1))[..Min(4, replyAccepted)])]
      ensures var removed := replyAccepted < 4 && !io.unlinkRefused;
        && died == (old(died) || (replyAccepted < 4 && io.unlinkRefused))
        && fs.files == (if removed then old(fs.files) - {filename} else old(fs.files))
    {
      var reply := EncodeHeader(Header(ReplyModifier1, 0, 1));
      trace := trace + [Reply(reply[..Min(4, replyAccepted)])];
      if replyAccepted < 4 {
        // client disconnected: remove the spool file
        var ok := fs.Unlink(filename, io.unlinkRefused);
        if !ok {
          died := true;  // exit(1) when the file cannot be removed
        }
      }
    }

    /** The consumer's progress as the walk specifications see it. */
    function Current(): Progress
      reads this, fs
    {
      Progress(fs.files, trace, died)
    }

    /**
     * The effect of one call of `spooler_manage_task(v.dir, v.name)` on the
     * files, the events and the life of the process. Only a task file that
     * the screening lets through changes anything: it is handled, removed
     * when its handling destroys it, and the process exits when that removal
     * fails. The entries of a priority directory are visits of their own.
     */
    function Step(s: Progress, v: Visit, io: ScanIo): (r: Progress)
    {
      var p := Join(v.dir, v.name);
      if s.died || Screen(v.name, Lookup(s.files, p), io.now, ordered, isNumber) != Process then s
      else
        var h := Handle(p, s.files[p], v.name, io, plugins);
        var dies := Destroys(h) && DestroyRefused(v.dir, p, io);
        Progress(if Destroys(h) && !dies then s.files - {p} else s.files,
                 Handled(s.trace, h, p, v.name, harakiri, plugins, dies),
                 dies)
    }

    /** The visits `vs`, one `Step` after the other. */
    function Replay(s: Progress, vs: seq<Visit>, io: ScanIo): (r: Progress)
      decreases |vs|
    {
      if vs == [] then s else Step(Replay(s, vs[..|vs| - 1], io), vs[|vs| - 1], io)
    }

    lemma {:induction false} ReplayAppend(s: Progress, a: seq<Visit>, b: seq<Visit>, io: ScanIo)
      ensures Replay(s, a + b, io) == Replay(Replay(s, a, io), b, io)
      decreases |b|
    {
      if b == [] {
        assert a + b == a;
      } else {
        var b' := b[..|b| - 1];
        assert (a + b)[..|a + b| - 1] == a + b';
        assert (a + b)[|a + b| - 1] == b[|b| - 1];
        ReplayAppend(s, a, b', io);
      }
    }

    /** The visits since `start` replay to `c1` when the later ones replay from `c0`. */
    lemma ReplayExtend(s: Progress, c0: Progress, c1: Progress, start: seq<Visit>,
                       v0: seq<Visit>, v1: seq<Visit>, io: ScanIo)
      requires |start| <= |v0| <= |v1| && v1[..|v0|] == v0
      requires c0 == Replay(s, v0[|start|..], io) && c1 == Replay(c0, v1[|v0|..], io)
      ensures c1 == Replay(s, v1[|start|..], io)
    {
      assert v1[|start|..] == v0[|start|..] + v1[|v0|..];
      ReplayAppend(s, v0[|start|..], v1[|v0|..], io);
    }

    /** Visit `v` finds its entry in `files` due, and handling it destroys the file. */
    predicate DueAndDestroyed(files: map<Path, Entry>, v: Visit, io: ScanIo)
    {
      var p := Join(v.dir, v.name);
      && Screen(v.name, Lookup(files, p), io.now, ordered, isNumber) == Process
      && Destroys(Handle(p, files[p], v.name, io, plugins))
    }

    /**
     * What a walk `vs` that ended in `r` removed, judged on the files as they
     * were before it: a file disappears only when a visit found it due and
     * its handling destroys it; when the process survives, every such file
     * is gone; and the process exits only after such a destroy was refused.
     */
    ghost predicate WalkRemoved(s: Progress, vs: seq<Visit>, r: Progress, io: ScanIo)
      reads this
    {
      && r.files.Keys <= s.files.Keys
      && (forall q :: q in r.files ==> r.files[q] == s.files[q])
      && (forall q :: q in s.files && q !in r.files ==>
            exists k :: 0 <= k < |vs| && Join(vs[k].dir, vs[k].name) == q
                        && DueAndDestroyed(s.files, vs[k], io))
      && (!r.died ==> forall k :: 0 <= k < |vs| && DueAndDestroyed(s.files, vs[k], io) ==>
            Join(vs[k].dir, vs[k].name) !in r.files)
      && (r.died ==> exists k :: 0 <= k < |vs| && DueAndDestroyed(s.files, vs[k], io)
                                 && DestroyRefused(vs[k].dir, Join(vs[k].dir, vs[k].name), io))
    }

    /** Every walk from a living process removes only what `WalkRemoved` allows. */
    lemma {:induction false} ReplayRemoves(s: Progress, vs: seq<Visit>, io: ScanIo)
      requires !s.died
      ensures WalkRemoved(s, vs, Replay(s, vs, io), io)
      decreases |vs|
    {
      if vs != [] {
        var ws := vs[..|vs| - 1];
        ReplayRemoves(s, ws, io);
        assert vs == ws + [vs[|vs| - 1]];
        RemovedStep(s, ws, vs[|vs| - 1], io);
      }
    }

    /** One more visit keeps `WalkRemoved`. */
    lemma RemovedStep(s: Progress, ws: seq<Visit>, v: Visit, io: ScanIo)
      requires !s.died && WalkRemoved(s, ws, Replay(s, ws, io), io)
      ensures WalkRemoved(s, ws + [v], Replay(s, ws + [v], io), io)
    {
      var vs := ws + [v];
      var p := Join(v.dir, v.name);
      var m := Replay(s, ws, io);
      assert vs[..|vs| - 1] == ws;
      assert Replay(s, vs, io) == Step(m, v, io);
      assert forall k :: 0 <= k < |ws| ==> vs[k] == ws[k];
      if p in m.files {
        assert Lookup(m.files, p) == Lookup(s.files, p);
        assert DueAndDestroyed(m.files, v, io) == DueAndDestroyed(s.files, v, io);
      }
    }

    /**
     * `destroy_spool(dir, file)`: enter `dir` and unlink `file`; the process
     * exits when either fails.
     */
    method DestroySpool(dir: Path, file: string, io: ScanIo)
      modifies this, fs
      ensures lockHeld == old(lockHeld) && spoolerPid == old(spoolerPid)
      ensures trace == old(trace) && visits == old(visits)
      ensures var p := Join(dir, file);
        var ok := && !io.destroyChdirFails(dir) && p in old(fs.files)
                  && old(fs.files)[p].kind != Directory && !io.unlinkRefused(p);
        && fs.files == (if ok then old(fs.files) - {p} else old(fs.files))
        && died == (old(died) || !ok)
    {
      if io.destroyChdirFails(dir) {
        died := true;
        return;
      }
      var p := Join(dir, file);
      var ok := fs.Unlink(p, io.unlinkRefused(p));
      if !ok {
        died := true;
      }
    }

    /**
     * One round of the `spooler()` loop: enter the spool directory (the
     * process exits when it cannot), then walk it: sorted and recursively in
     * ordered mode, in listing order otherwise. The walk ends early when a
     * destroy ends the process.
     */
    method Pass(io: ScanIo)
      requires spoolDir.Some? && !died && io.ListingsAgree()
      modifies this, fs
      ensures lockHeld == old(lockHeld) && spoolerPid == old(spoolerPid)
      ensures var root := spoolDir.value;
        && (io.chdirFails(root) ==>
              died && fs.files == old(fs.files) && trace == old(trace) && visits == old(visits))
        && (!io.chdirFails(root) ==>
              && OnlyRemovesFilesUnder(old(fs.files), fs.files, root)
              && VisitedWithin(old(visits), visits, root)
              && Current() == Replay(old(Current()), visits[|old(visits)|..], io))
        && (!io.chdirFails(root) && io.listFails(root) ==>
              !died && fs.files == old(fs.files) && trace == old(trace) && visits == old(visits))
        && (!io.chdirFails(root) && !io.listFails(root) ==>
              var names := NamesIn(visits[|old(visits)|..], root);
              var listing := if ordered then Reverse(io.versionSorted(root)) else io.readdirOrder(root);
              && names <= listing
              && (!died ==> names == listing && multiset(names) == multiset(io.readdirOrder(root)))
              && (ordered ==> DescendsBy(names, io.versionLe)))
    {
      var root := spoolDir.value;
      if io.chdirFails(root) {
        died := true;
        return;
      }
      if ordered {
        Scandir(root, io);
        if !died && !io.listFails(root) {
          ReverseMultiset(io.versionSorted(root));
        }
      } else {
        Readdir(root, io);
      }
    }

    /**
     * What one call of `spooler_manage_task(dir, task)` visits, from the
     * files `files` it started on: a priority directory `p` that is due and
     * can be entered is walked, every later call made in `p` or inside it
     * and the names in `p` visited in the reverse of the `versionsort`ed
     * listing (all of them unless the process died), or not at all when
     * `p` cannot be listed; any other entry is the only visit.
     */
    ghost predicate PriorityWalk(files: map<Path, Entry>, before: seq<Visit>, after: seq<Visit>,
                                 dir: Path, task: string, io: ScanIo, died: bool)
    {
      var p := Join(dir, task);
      var into := Screen(task, Lookup(files, p), io.now, ordered, isNumber) == Recurse && !io.chdirFails(p);
      && (!into ==> after == before + [Visit(dir, task)])
      && (into ==> VisitedWithin(before + [Visit(dir, task)], after, p))
      && (into && io.listFails(p) ==> after == before + [Visit(dir, task)])
      && (into && !io.listFails(p) && |after| > |before| ==>
            var names := NamesIn(after[|before| + 1..], p);
            && names <= Reverse(io.versionSorted(p))
            && (!died ==> names == Reverse(io.versionSorted(p))))
    }

    /**
     * `spooler_manage_task(dir, task)`: screen the entry, recurse into a
     * priority directory in ordered mode, otherwise open and lock the file,
     * read it, destroy it if it is corrupt, close it, and hand it to the
     * handlers, destroying it when the first one that claims it returns -2.
     */
    method ManageTask(dir: Path, task: string, io: ScanIo)
      requires !died
      modifies this, fs
      decreases SubDirs(Dirs(fs.files), dir), 0
      ensures lockHeld == old(lockHeld) && spoolerPid == old(spoolerPid)
      ensures OnlyRemovesFilesUnder(old(fs.files), fs.files, dir)
      ensures VisitedThen(old(visits), visits, dir, task)
      ensures !ordered ==> visits == old(visits) + [Visit(dir, task)]
      ensures PriorityWalk(old(fs.files), old(visits), visits, dir, task, io, died)
      ensures Current() == Replay(old(Current()), visits[|old(visits)|..], io)
    {
      ghost var c0 := Current();
      var v := Visit(dir, task);
      visits := visits + [v];
      ghost var v1 := visits;
      assert visits[|old(visits)|..] == [v];
      assert [v][..0] == [];
      assert Replay(c0, [v], io) == Step(c0, v, io);
      var p := Join(dir, task);
      JoinIsBelow(dir, task);
      if !IsCandidate(task, ordered, isNumber) {
        return;
      }
      if p !in fs.files {
        // lstat failed
        return;
      }
      var st := fs.files[p];
      if st.mtime > io.now {
        // scheduled for a later pass
        return;
      }
      if st.kind == Directory && ordered {
        if io.chdirFails(p) {
          return;
        }
        ghost var f0 := fs.files;
        SubDirsShrink(Dirs(fs.files), dir, task);
        Scandir(p, io);
        ReplayExtend(c0, c0, Current(), old(visits), v1, visits, io);
        OnlyRemovesFilesUnderWiden(f0, fs.files, p, dir);
        forall k | |v1| <= k < |visits|
          ensures Below(visits[k].dir, dir)
        {
          if visits[k].dir != p {
            BelowTransitive(visits[k].dir, p, dir);
          }
        }
        return;
      }
      if st.kind != Regular {
        return;
      }
      if !st.accessible {
        return;
      }
      OpenTask(dir, task, st, io);
    }

    /**
     * The rest of `spooler_manage_task` for a regular, accessible task file
     * `dir/task` whose entry is `st`: open and lock it, read it, destroy it
     * if it is corrupt, close it, run the handlers, and destroy it when the
     * handler that claims it returns -2.
     */
    method OpenTask(dir: Path, task: string, st: Entry, io: ScanIo)
      requires !died && Join(dir, task) in fs.files && fs.files[Join(dir, task)] == st
      requires Screen(task, Some(st), io.now, ordered, isNumber) == Process
      modifies this, fs
      ensures lockHeld == old(lockHeld) && spoolerPid == old(spoolerPid)
      ensures visits == old(visits)
      ensures Current() == Step(old(Current()), Visit(dir, task), io)
    {
      var p := Join(dir, task);
      ghost var h := Handle(p, st, task, io, plugins);
      ghost var dies := Destroys(h) && DestroyRefused(dir, p, io);
      ghost var after := Handled(old(trace), h, p, task, harakiri, plugins, dies);
      assert Step(old(Current()), Visit(dir, task), io)
          == Progress(if Destroys(h) && !dies then old(fs.files) - {p} else old(fs.files), after, dies);
      if io.openFails(p) {
        return;
      }
      if io.flockFails(p) {
        trace := trace + [FileClosed(p)];
        return;
      }
      trace := trace + [FileLocked(p)];
      match ReadTask(|st.data|, st.data) {
        case HeaderShort =>
          trace := trace + [FileClosed(p)];
          assert h == HeaderUnread;
        case Truncated(_) =>
          assert h == Corrupt;
          DestroySpool(dir, task, io);
          if died {
            return;
          }
          trace := trace + [FileClosed(p)];
        case Task(_, meta, body) =>
          trace := trace + [FileClosed(p)];
          var v, events := RunHandlers(plugins, harakiri, task, meta, body);
          assert h == Dispatched(meta, body, v);
          trace := trace + events;
          if v.Claimed? && v.ret == SpoolOk {
            DestroySpool(dir, task, io);
          }
          if v.Unclaimed? {
            trace := trace + [NoHandler(task)];
          }
      }
    }

    /**
     * `spooler_scandir(dir)`: list `dir` sorted by `versionsort` and call
     * `spooler_manage_task` on the entries from the last index down to the
     * first (`while (n--)`), so each entry is visited once, in descending
     * order, until the process exits.
     */
    method Scandir(dir: Path, io: ScanIo)
      requires !died
      modifies this, fs
      decreases SubDirs(Dirs(fs.files), dir), 1
      ensures lockHeld == old(lockHeld) && spoolerPid == old(spoolerPid)
      ensures OnlyRemovesFilesUnder(old(fs.files), fs.files, dir)
      ensures VisitedWithin(old(visits), visits, dir)
      ensures Current() == Replay(old(Current()), visits[|old(visits)|..], io)
      ensures io.listFails(dir) ==> visits == old(visits) && Current() == old(Current())
      ensures !io.listFails(dir) ==>
        var names := NamesIn(visits[|old(visits)|..], dir);
        && names <= Reverse(io.versionSorted(dir))
        && (!died ==> names == Reverse(io.versionSorted(dir)))
        && (SortedBy(io.versionSorted(dir), io.versionLe) ==> DescendsBy(names, io.versionLe))
    {
      if io.listFails(dir) {
        assert visits[|old(visits)|..] == [];
        return;
      }
      var tasklist := io.versionSorted(dir);
      var n := |tasklist|;
      while n > 0 && !died
        invariant 0 <= n <= |tasklist|
        invariant lockHeld == old(lockHeld) && spoolerPid == old(spoolerPid)
        invariant OnlyRemovesFilesUnder(old(fs.files), fs.files, dir)
        invariant Dirs(fs.files) == Dirs(old(fs.files))
        invariant VisitedWithin(old(visits), visits, dir)
        invariant NamesIn(visits[|old(visits)|..], dir) == Reverse(tasklist[n..])
        invariant Current() == Replay(old(Current()), visits[|old(visits)|..], io)
      {
        n := n - 1;
        assert tasklist[n..][1..] == tasklist[n + 1..];
        ghost var v0 := visits;
        ghost var c0 := Current();
        ghost var f0 := fs.files;
        ManageTask(dir, tasklist[n], io);
        VisitStep(old(visits), v0, visits, dir, tasklist[n]);
        ReplayExtend(old(Current()), c0, Current(), old(visits), v0, visits, io);
        OnlyRemovesFilesUnderTransitive(old(fs.files), f0, fs.files, dir);
        OnlyRemovesFilesUnderKeepsDirs(old(fs.files), fs.files, dir);
      }
      ReverseSuffix(tasklist, n);
      if SortedBy(tasklist, io.versionLe) {
        PrefixOfReverseDescends(NamesIn(visits[|old(visits)|..], dir), tasklist, io.versionLe);
      }
    }

    /**
     * `spooler_readdir(dir)`: call `spooler_manage_task` on each entry once,
     * in the order the operating system lists them, until the process exits.
     */
    method Readdir(dir: Path, io: ScanIo)
      requires !died
      modifies this, fs
      ensures lockHeld == old(lockHeld) && spoolerPid == old(spoolerPid)
      ensures OnlyRemovesFilesUnder(old(fs.files), fs.files, dir)
      ensures VisitedWithin(old(visits), visits, dir)
      ensures Current() == Replay(old(Current()), visits[|old(visits)|..], io)
      ensures io.listFails(dir) ==> visits == old(visits) && Current() == old(Current())
      ensures !io.listFails(dir) ==>
        var names := NamesIn(visits[|old(visits)|..], dir);
        && names <= io.readdirOrder(dir)
        && (!died ==> names == io.readdirOrder(dir))
      // without priority directories nothing else is visited
      ensures !ordered ==> |visits| == |old(visits)| + |NamesIn(visits[|old(visits)|..], dir)|
    {
      if io.listFails(dir) {
        assert visits[|old(visits)|..] == [];
        return;
      }
      var entries := io.readdirOrder(dir);
      var i := 0;
      while i < |entries| && !died
        invariant 0 <= i <= |entries|
        invariant lockHeld == old(lockHeld) && spoolerPid == old(spoolerPid)
        invariant OnlyRemovesFilesUnder(old(fs.files), fs.files, dir)
        invariant VisitedWithin(old(visits), visits, dir)
        invariant NamesIn(visits[|old(visits)|..], dir) == entries[..i]
        invariant !ordered ==> |visits| == |old(visits)| + i
        invariant Current() == Replay(old(Current()), visits[|old(visits)|..], io)
      {
        assert entries[..i + 1] == entries[..i] + [entries[i]];
        ghost var v0 := visits;
        ghost var c0 := Current();
        ghost var f0 := fs.files;
        ManageTask(dir, entries[i], io);
        VisitStep(old(visits), v0, visits, dir, entries[i]);
        ReplayExtend(old(Current()), c0, Current(), old(visits), v0, visits, io);
        OnlyRemovesFilesUnderTransitive(old(fs.files), f0, fs.files, dir);
        i := i + 1;
      }
      assert !died ==> entries[..i] == entries;
    }
  }
}

=== FILE: traversal.dfy ===
/**
 * The order in which the two directory walkers hand entries to
 * `spooler_manage_task`, and the relation "lies inside a directory" that
 * the recursion into priority directories follows.
 */
module Traversal {
  import opened TaskNames

  /** One call of `spooler_manage_task(dir, name)`. */
  datatype Visit = Visit(dir: Path, name: string)

  function Reverse<T>(s: seq<T>): (r: seq<T>)
    ensures |r| == |s|
    ensures forall i :: 0 <= i < |s| ==> r[i] == s[|s| - 1 - i]
  {
    if s == [] then [] else Reverse(s[1..]) + [s[0]]
  }

  /** `s` is in ascending order under `le` (for `scandir`, `versionsort`). */
  ghost predicate SortedBy<T>(s: seq<T>, le: (T, T) -> bool)
  {
    forall i, j :: 0 <= i < j < |s| ==> le(s[i], s[j])
  }

  /** `s` is in descending order under `le`. */
  ghost predicate DescendsBy<T>(s: seq<T>, le: (T, T) -> bool)
  {
    forall i, j :: 0 <= i < j < |s| ==> le(s[j], s[i])
  }

  /**
   * Walking a `versionsort`ed array from the last index down, as
   * `while (n--)` does, visits the entries in descending order.
   */
  lemma ReverseOfSortedDescends<T>(s: seq<T>, le: (T, T) -> bool)
    requires SortedBy(s, le)
    ensures DescendsBy(Reverse(s), le)
  {
  }

  /** Stopping that walk early still visits the entries in descending order. */
  lemma PrefixOfReverseDescends<T>(names: seq<T>, s: seq<T>, le: (T, T) -> bool)
    requires SortedBy(s, le) && names <= Reverse(s)
    ensures DescendsBy(names, le)
  {
    ReverseOfSortedDescends(s, le);
    assert forall i :: 0 <= i < |names| ==> names[i] == Reverse(s)[i];
  }

  /** The entries from index `n` on, walked from the end, are where the full walk starts. */
  lemma {:induction false} ReverseSuffix<T>(s: seq<T>, n: nat)
    requires n <= |s|
    ensures Reverse(s[n..]) == Reverse(s)[..|s| - n]
  {
    if n > 0 {
      ReverseSuffix(s[1..], n - 1);
      assert s[1..][n - 1..] == s[n..];
      assert Reverse(s)[..|s| - n] == Reverse(s[1..])[..|s| - n];
    }
  }

  /** Walking from the end visits the same entries, each as often. */
  lemma {:induction false} ReverseMultiset<T>(s: seq<T>)
    ensures multiset(Reverse(s)) == multiset(s)
  {
    if s != [] {
      ReverseMultiset(s[1..]);
      assert s == [s[0]] + s[1..];
    }
  }

  /** The names visited in `dir` itself, in visiting order. */
  function NamesIn(visits: seq<Visit>, dir: Path): (names: seq<string>)
    ensures |names| <= |visits|
  {
    if visits == [] then []
    else (if visits[0].dir == dir then [visits[0].name] else []) + NamesIn(visits[1..], dir)
  }

  lemma {:induction false} NamesInAppend(a: seq<Visit>, b: seq<Visit>, dir: Path)
    ensures NamesIn(a + b, dir) == NamesIn(a, dir) + NamesIn(b, dir)
  {
    if a != [] {
      assert (a + b)[1..] == a[1..] + b;
      NamesInAppend(a[1..], b, dir);
    } else {
      assert a + b == b;
    }
  }

  /** Visits that all happen strictly inside `dir` name nothing in `dir` itself. */
  lemma {:induction false} NamesInDeeper(visits: seq<Visit>, dir: Path)
    requires forall k :: 0 <= k < |visits| ==> Below(visits[k].dir, dir)
    ensures NamesIn(visits, dir) == []
  {
    if visits != [] {
      NamesInDeeper(visits[1..], dir);
    }
  }

  /**
   * One call of `spooler_manage_task(dir, name)` that visits `name` first
   * and then only entries strictly inside `dir` adds exactly `name` to the
   * names visited in `dir`.
   */
  lemma NamesInExtend(before: seq<Visit>, after: seq<Visit>, start: nat, dir: Path, name: string)
    requires start <= |before| < |after|
    requires after[..|before| + 1] == before + [Visit(dir, name)]
    requires forall k :: |before| < k < |after| ==> Below(after[k].dir, dir)
    ensures NamesIn(after[start..], dir) == NamesIn(before[start..], dir) + [name]
  {
    var tail := after[|before| + 1..];
    assert after[start..] == before[start..] + [Visit(dir, name)] + tail;
    NamesInAppend(before[start..] + [Visit(dir, name)], tail, dir);
    NamesInAppend(before[start..], [Visit(dir, name)], dir);
    NamesInDeeper(tail, dir);
  }
}
